=== FILE: README.md ===
# A verified model of the ES-DOC experiment report layout and citation summary

`experiment.py` renders ES-DOC experiment, MIP and CMIP6 documents as HTML
tables. This project models in Dafny the pure logic inside that file. It does
not model the retrieval, templating or rendering around it. It proves
properties of that logic.

- **Layout** (`layout.dfy`, `Doc._html` and `Experiment.__init__`):
  - The weight of a related document is the length of its description. When
    the report shows additional requirements, the lengths of those are added.
  - The ordering 'normal' is a stable ascending sort by weight, then reversed.
  - The ordering 'special' keeps the first document, puts the lightest of the
    rest second, and the remainder heaviest first.
  - Any other ordering is an error.
  - The ordered list is cut into rows of two. An odd list ends with a row
    whose second cell is empty.
  - An experiment's header label is its MIP names joined by ", ".
- **Citations** (`citations.dfy`, `Reference`):
  - A citation record with a DOI is parsed; one without a DOI stays
    unpopulated.
  - The author is the text before the first comma, with one hard-coded
    correction ("van Vuuren DP" becomes "van Vuuren").
  - The year is the first match of the pattern `([^\w])19|20\d\d([^\w])*?`,
    converted with Python's `int`.
  - The table string is "<author> et al. (<match>)". The bibliography key is
    three letters of the author, "EA", then the match without its first two
    characters.
- **Selection** (`selection.dfy`, `CMIP6.__init__`):
  - For each sub-project, the populated citations are stably sorted by year.
  - The citation chosen is the last one before the final position that is as
    recent as the final one and names the MIP. If there is none, the final
    one is chosen.
  - The chosen citation supplies three things: the row's description
    ("<long name> - <table string>"), one reference text, and one
    `\nocite{key}` line.
  - The rows are finally sorted by name.

Support modules:
- `wrappers.dfy`: `Option`, `Result`, and the Python exceptions as an `Error`
  datatype.
- `text.dfy`: Python string slicing, `in`, and string comparison.
- `sorting.dfy`: a generic stable insertion sort. Stability is stated
  through `Peers`, the subsequence of items equivalent to a given one.
  Sortedness and equal peers determine the result uniquely (`SortUnique`).

Integers are unbounded, as in Python. Strings are `seq<char>`, and the
character classes are those of Python 2's `re` and `int` on byte strings.

Three behaviours of the code that a reader may not expect, which the model follows:
- A citation with a DOI but no recognisable year is a hard error. `int(None)`
  raises at experiment.py:336; the citation is not silently skipped.
- `Experiment.html` takes an `ordering` argument but does not pass it on
  (experiment.py:239-241). Experiment tables are therefore always ordered
  'normal'.
- The ordering 'normal' is not idempotent. Documents of equal weight swap
  places on every application, so applying it twice restores the input's
  tie order, and applying it three times gives the first result again.

## Model

| member | source | states |
|---|---|---|
| Layout.Weight | experiment.py:139-147 | the weight is at least the description's length, and exactly that length when notes are not rendered or there are none |
| Layout.WeightAddNote | experiment.py:143-146 | when notes are rendered each note adds its length to the weight; otherwise notes leave the weight unchanged |
| Layout.NormalOrder | experiment.py:164-166 | the 'normal' order is a permutation with non-increasing weights; documents of equal weight come out in the reverse of their input order |
| Layout.SpecialOrder | experiment.py:167-169 | 'special' fails with an index error on fewer than two documents; otherwise it is a permutation of the same length that keeps the first document, places a lightest later document (the first such) second, and from the third place on holds the 'normal' order of the remaining documents: heaviest first, equal weights in reverse input order |
| Layout.SpecialShape | experiment.py:168-169 | the special arrangement `Layout.SpecialArrangement`, `[related[0], ordered[0]] + reversed(ordered[1:])`, of two or more documents is a permutation with the first document first, the first lightest later document second, and then the 'normal' order of the later documents without that one, so its weights do not increase and equal weights come out in reverse input order |
| Layout.Order | experiment.py:163-171 | 'normal' and 'special' select their orderings; any other ordering string fails with an error naming it |
| Layout.NormalOrderPeriodTwo | experiment.py:164-166 | applying the 'normal' order three times gives the same list as applying it once |
| Layout.NormalOrderSwapsTies | experiment.py:164-166 | two documents of equal weight come out of the 'normal' order swapped |
| Layout.NormalOrderNotIdempotent | experiment.py:164-166 | two distinct documents of equal weight are swapped by each 'normal' ordering, so the ordering is not idempotent |
| Layout.MakePairs | experiment.py:172-174 | pairing n documents gives ceil(n/2) rows; row k holds documents 2k and 2k+1, and when n is odd the last row holds the last document and an empty cell |
| Layout.FlattenMakePairs | experiment.py:172-174 | reading the rows cell by cell, skipping empty cells, gives back the ordered list: no document is lost or repeated |
| Layout.MakePairsFlatten | experiment.py:172-174 | rows in which only the last row may have an empty cell are exactly the pairing of their flattening |
| Layout.Tabulate | experiment.py:162-181 | a one-column table keeps the related list untouched; a two-column table fails exactly when the ordering fails, with its error; otherwise its list is the ordering's result and its rows are that list's consecutive pairs, ceil(n/2) of them, with only the last cell empty when n is odd, flattening back to the list |
| Layout.ExperimentTable | experiment.py:239-241 | an experiment table never fails, whatever ordering is asked for; one column keeps the requirements as given; two columns hold their 'normal' order with weights counting the additional requirements, paired consecutively |
| Layout.ProjectTable | experiment.py:268-272 | a MIP or CMIP6 table never fails; one column keeps the experiments as given; two columns hold their 'normal' order by description length, paired consecutively |
| Layout.MipsLabel | experiment.py:220-223 | appending each MIP name and ", ", then cutting the last two characters, is the names joined by ", " (empty for no names) |
| Layout.JoinByAppend | experiment.py:220-223 | the appended names are the joined names followed by one separator |
| Sorting.SortBy | experiment.py:165 | the stable sort returns a sorted permutation of its input in which equivalent items keep their relative order |
| Sorting.SortUnique | experiment.py:165 | any sorted list with the same items and the same order among equivalent items is the stable sort's result |
| Sorting.SortHead | experiment.py:168-169 | the first element of the stable sort is the first element of least key, which is the document 'special' puts second |
| Sorting.SortTail | experiment.py:168-169 | the stable sort without its first element is the stable sort of the input without its first element of least key |
| Citations.Author | experiment.py:323 | the author is a comma-free prefix of the detail that ends at the first comma or at the end of the detail |
| Citations.AuthorBeforeComma | experiment.py:323 | the author is exactly the detail up to its first comma, or the whole detail when there is none |
| Citations.CorrectAuthorMeaning | experiment.py:331-334 | the corrected author never contains "van Vuuren DP", any other author is kept unchanged, and correcting twice is correcting once |
| Citations.PatternAtMeaning | experiment.py:324 | at a position the written pattern matches either a non-word character followed by "19" or "20" and two digits, tried in that order, and the intended pattern "19" or "20" and two digits; the match is the text starting there, and each shape present there is matched |
| Citations.Search | experiment.py:324-329 | the search returns the leftmost position where the pattern matches, and the text it matches; no result means no position matches |
| Citations.SearchSkips | experiment.py:325 | positions where the pattern does not match do not change the search's result |
| Citations.PyInt | experiment.py:336 | conversion fails with a ValueError carrying the text; a non-empty run of digits converts to its decimal value, also after one leading whitespace character or "+", and to its negation after "-"; text starting with any other non-digit character, such as "(", fails |
| Citations.Resolve | experiment.py:300-309 | a record without a DOI is unpopulated whatever its text; one with a DOI is populated exactly when its detail parses, with that citation, and otherwise fails with the parse error |
| Citations.Populate | experiment.py:311-346 | no year match raises the error of `int(None)`; with a match, parsing succeeds exactly when the match converts to an integer, and otherwise fails with the ValueError naming the match; the citation keeps the detail as its text and its key starts with three letters of the corrected author and "EA" |
| Citations.PopulateShape | experiment.py:336-344 | the year is the integer value of the first match, the table string is "<author> et al. (" followed by the match and ")", and the key is three letters of the author, "EA" and the match without its first two characters |
| Citations.VanVuurenFix | experiment.py:331-334 | an author containing "van Vuuren DP" is cited as "van Vuuren et al. (" with key "vanEA" |
| Citations.PopulateTwentiesYear | experiment.py:322-346 | when the first match is a run "20dd", the year is that number, the key is three letters of the author, "EA" and the two digits, and the table string is "<author> et al. (20dd)" |
| Citations.NineteenthCenturyYearsMisparsed | experiment.py:324-325 | "Smith, 1998" parses with year 19, key "SmiEA9" and table string "Smith et al. ( 19)" |
| Citations.ParenthesisedNineteenthCenturyYearFails | experiment.py:324-336 | "Smith (1998)" matches "(19", which `int` rejects, so the reference raises a ValueError |
| Citations.IntendedCitationShape | experiment.py:324-344 | with the intended pattern a record fails exactly when it holds no "19dd" or "20dd" run; otherwise the year lies in 1900..2099, the table string ends with the year's four digits and ")", and the key ends with the year's last two digits |
| Citations.NineteenthCenturyYearsIntended | experiment.py:324-344 | with the intended pattern "Smith, 1998" parses with year 1998, key "SmiEA98" and table string "Smith et al. (1998)" |
| Selection.WithDoi | experiment.py:383-387 | the records kept are exactly those with a DOI, no more of them than there were records; a single record is kept exactly when it has a DOI |
| Selection.WithDoiAppend | experiment.py:383-387 | filtering a concatenation is the concatenation of the filtered parts, so the records with a DOI keep their document order and their repeats |
| Selection.KeptWithDoi | experiment.py:383-387 | keeping the populated references gives the same citations, in order, as parsing only the records that have a DOI |
| Selection.Populated | experiment.py:383-387 | the kept citations are exactly the parses of the records with a DOI, in order; collecting fails exactly when some record fails, with the first failing record's error |
| Selection.LastQualifying | experiment.py:394-399 | the downward search returns the highest position below the bound that has the final year and names the MIP, or -1 when none does |
| Selection.ChosenIndex | experiment.py:389-400 | choosing fails with an index error exactly when there are no citations; otherwise the index is the last position before the final one whose year equals the final year and whose text contains the MIP name, or the final one when no such position exists |
| Selection.SelectIndex | experiment.py:389-399 | the upward loop that overwrites `index` on every qualifying position chooses the same index as the downward search |
| Selection.ChoiceUnique | experiment.py:389-400 | the declarative choice admits one index only |
| Selection.ChoiceIsMostRecent | experiment.py:388-399 | on a year-sorted list the chosen citation has the maximum year, and it names the MIP whenever an earlier citation of that year does |
| Selection.Canonical | experiment.py:383-400 | a sub-project's citation fails when collecting fails or nothing is populated; otherwise it is one of the populated citations and has the latest year among them |
| Selection.MapAll | experiment.py:376-402 | the loop over the sub-projects fails exactly when one of them fails, with the first failure; otherwise it holds every sub-project's value, in order |
| Selection.Row | experiment.py:378-405 | the row keeps the sub-project's name, and its description is the long name, " - ", then the chosen citation's table string |
| Selection.RowsAt | experiment.py:376-406 | row i of the summary is built from sub-project i and its chosen citation |
| Selection.NociteBlockAppend | experiment.py:402 | the `\nocite` block of two runs of sub-projects is the concatenation of their blocks |
| Selection.NociteBlockLength | experiment.py:402 | the `\nocite` block holds exactly one line per sub-project: ten characters plus the key |
| Selection.SortByName | experiment.py:409 | the rows are permuted into ascending name order, rows with equal names keeping their order |
| Selection.ChooseCitation | experiment.py:383-399 | collecting, year-sorting and selecting in sequence computes the sub-project's canonical citation |
| Selection.Gather | experiment.py:376-406 | the loop fails with the first failing sub-project's error; otherwise it has chosen every canonical citation and built one row, one reference text and one `\nocite` line per sub-project, in sub-project order |
| Selection.BuildSummary | experiment.py:376-409 | the summary fails exactly when some sub-project's citation cannot be chosen; otherwise the references and the `\nocite` block follow the sub-projects, and the rows are the sub-projects' rows, sorted by name and stable |

## Left out

- `Repo`, `esd.search` and `esd.retrieve` (experiment.py:41-73, 227, 235, 266, 384) are network retrieval. Documents arrive as input sequences of records. A sub-project's name is taken to be its retrieved document's name.
- Jinja templates and the placeholder surgery on them (experiment.py:89-126, 150-161, 175-181, 208-210) are an external templating engine. The model produces the row structure a template is rendered from, not HTML.
- `render`, WeasyPrint and the CSS (experiment.py:23-39, 185-196) are file I/O and a native renderer.
- The `print` statements, the environment set-up and the unit-test class (experiment.py:1-5, 190, 334, 416-487) have no effect on the results.
- The type-key `assert`s (experiment.py:215, 258) check the input's document type; the model's inputs are typed instead.
- The `additional` template text is reduced to its truthiness (`withNotes`), the only way the ordering reads it.
- A record whose `doi` is `None` or empty is modelled as the empty string; both are falsy.
- Python 2 byte strings are modelled as character sequences. Bytes outside ASCII are non-word characters for the pattern, as Python 2's `re` treats them without the locale or Unicode flags.
- Building a requirement's `monkey_additional` list in `Experiment.__init__` (experiment.py:225-237) depends on retrieval. An item's notes are given as input.
- Citations.PyInt: whitespace between the sign and the digits, which Python 2's `int` skips (`int("- 19")` is -19), is rejected. No match of either year pattern has a sign, so no citation reaches that case.
- Selection.Canonical: its postcondition states membership and the latest year; which of several most recent citations is chosen is stated by `Selection.ChosenIndex` and `Selection.ChoiceIsMostRecent` on the year-sorted list.

## Findings

| source | as written | input that shows it | evidently intended | confidence | as-written member | corrected member |
|---|---|---|---|---|---|---|
| experiment.py:324-344 | the pattern `([^\w])19\|20\d\d([^\w])*?` parses as "a non-word character then 19" or "20 then two digits", so a 19xx year yields the three-character match of the preceding character and "19" | "Smith, 1998" gives year 19, key "SmiEA9" and table string "Smith et al. ( 19)"; "Smith (1998)" raises a ValueError on "(19" | a four-digit year 19dd or 20dd: year 1998, key "SmiEA98", table string "Smith et al. (1998)" | not executed | Citations.NineteenthCenturyYearsMisparsed | Citations.NineteenthCenturyYearsIntended |

`Citations.ParenthesisedNineteenthCenturyYearFails` is the second half of the as-written evidence. `Citations.IntendedCitationShape` proves the intended year range and string shapes for every input. The summary operations take the pattern as a parameter (`Citations.Parser`: `AsWritten` or `Intended`), so the rest of the model can use either.

=== FILE: citations.dfy ===
/** `Reference` (experiment.py): turning an ES-DOC citation record into a
    short citation. A record with a DOI is parsed; the author is the text
    before the first comma, the year is the first match of a regular
    expression, and from the two come the table's `citestring`
    ("<author> et al. (<year>)") and the bibliography key `citeguess`
    (three letters of the author, "EA", the year's last two digits).

    The regular expression `([^\w])19|20\d\d([^\w])*?` parses as two
    alternatives: a non-word character followed by "19", or "20" and two
    digits. `AsWritten` models it; `Intended` models the evidently intended
    "19 or 20, then two digits" (see `NineteenthCenturyYearsMisparsed`). */
module Citations {
  import opened Wrappers
  import opened Errors
  import Text

  /** A citation document: its DOI (the empty string when it has none) and
      its free-text citation detail. */
  datatype CitationDoc = CitationDoc(doi: string, detail: string)

  /** A populated reference: the year as an integer, the bibliography key,
      the string shown in the table, and the full citation text. */
  datatype Citation = Citation(year: int, citeguess: string, citestring: string, text: string)

  /** A `Reference` object: `populated` is false exactly for `Unpopulated`. */
  datatype Reference = Unpopulated | Populated(citation: Citation)

  /** Which year pattern the parser searches for. */
  datatype Parser = AsWritten | Intended

  /** `\d` of Python 2's `re` on byte strings. */
  predicate IsDigit(c: char) {
    '0' <= c <= '9'
  }

  /** `\w` of Python 2's `re` on byte strings, without the locale or Unicode flags. */
  predicate IsWordChar(c: char) {
    ('a' <= c <= 'z') || ('A' <= c <= 'Z') || IsDigit(c) || c == '_'
  }

  /** The characters Python 2's `int()` strips: space, tab, newline,
      vertical tab, form feed, carriage return. */
  predicate IsSpace(c: char) {
    c == ' ' || ('\t' <= c <= '\r')
  }

  /** `detail.split(',')[0]`: everything before the first comma. */
  function Author(detail: string): (a: string)
    ensures a <= detail
    ensures ',' !in a
    ensures |a| == |detail| || detail[|a|] == ','
    decreases |detail|
  {
    if |detail| == 0 || detail[0] == ',' then "" else [detail[0]] + Author(detail[1..])
  }

  /** The author is the text before the first comma, or all of the text
      when it has no comma. */
  lemma AuthorBeforeComma(detail: string, k: nat)
    requires k <= |detail| && (k == |detail| || detail[k] == ',')
    requires forall j :: 0 <= j < k ==> detail[j] != ','
    ensures Author(detail) == detail[..k]
  {
  }

  const MalformedAuthor: string := "van Vuuren DP"
  const CorrectedAuthor: string := "van Vuuren"

  /** The single correction of upstream content: an author containing
      "van Vuuren DP" becomes "van Vuuren"; any other author is kept. */
  function CorrectAuthor(author: string): string {
    if Text.Contains(author, MalformedAuthor) then CorrectedAuthor else author
  }

  /** The correction removes the malformed name and touches no other
      author, so correcting twice is correcting once. */
  lemma CorrectAuthorMeaning(author: string)
    ensures !Text.Contains(CorrectAuthor(author), MalformedAuthor)
    ensures !Text.Contains(author, MalformedAuthor) ==> CorrectAuthor(author) == author
    ensures CorrectAuthor(CorrectAuthor(author)) == CorrectAuthor(author)
  {
    Text.NotContainsLonger(CorrectedAuthor, MalformedAuthor);
  }

  /** The text the year pattern matches when tried at position `i` of `s`,
      alternatives tried left to right. */
  function PatternAt(p: Parser, s: string, i: nat): Option<string> {
    match p
    case AsWritten =>
      if i + 3 <= |s| && !IsWordChar(s[i]) && s[i + 1] == '1' && s[i + 2] == '9' then Some(s[i..i + 3])
      else if i + 4 <= |s| && s[i] == '2' && s[i + 1] == '0' && IsDigit(s[i + 2]) && IsDigit(s[i + 3])
      then Some(s[i..i + 4])
      else None
    case Intended =>
      if i + 4 <= |s| && ((s[i] == '1' && s[i + 1] == '9') || (s[i] == '2' && s[i + 1] == '0'))
         && IsDigit(s[i + 2]) && IsDigit(s[i + 3])
      then Some(s[i..i + 4])
      else None
  }

  /** What the pattern matches at a position: a slice of the text starting
      there, of one of the shapes its alternatives allow; and each shape
      present there is matched. */
  lemma PatternAtMeaning(p: Parser, s: string, i: nat)
    ensures var r := PatternAt(p, s, i);
            r.Some? ==> i + |r.value| <= |s| && r.value == s[i..i + |r.value|]
    ensures var r := PatternAt(p, s, i);
            p == AsWritten && r.Some? ==>
              || (|r.value| == 3 && !IsWordChar(r.value[0]) && r.value[1..] == "19")
              || (|r.value| == 4 && r.value[..2] == "20" && IsDigit(r.value[2]) && IsDigit(r.value[3]))
    ensures var r := PatternAt(p, s, i);
            p == Intended && r.Some? ==>
              && |r.value| == 4 && (r.value[..2] == "19" || r.value[..2] == "20")
              && IsDigit(r.value[2]) && IsDigit(r.value[3])
    ensures p == AsWritten && i + 3 <= |s| && !IsWordChar(s[i]) && s[i + 1..i + 3] == "19"
            ==> PatternAt(p, s, i) == Some(s[i..i + 3])
    ensures p == AsWritten && i + 4 <= |s| && s[i..i + 2] == "20" && IsDigit(s[i + 2]) && IsDigit(s[i + 3])
            ==> PatternAt(p, s, i) == Some(s[i..i + 4])
    ensures (&& p == Intended && i + 4 <= |s| && (s[i..i + 2] == "19" || s[i..i + 2] == "20")
             && IsDigit(s[i + 2]) && IsDigit(s[i + 3]))
            ==> PatternAt(p, s, i) == Some(s[i..i + 4])
  {
  }

  /** A match: where it starts and the matched text (`m.group(0)`). */
  datatype Match = Match(start: nat, text: string)

  /** `re.search`: the leftmost position from `from` on where the pattern
      matches. */
  function Search(p: Parser, s: string, from: nat): (r: Option<Match>)
    ensures r.Some? ==> from <= r.value.start && PatternAt(p, s, r.value.start) == Some(r.value.text)
    ensures r.Some? ==> forall j :: from <= j < r.value.start ==> PatternAt(p, s, j).None?
    ensures r.None? ==> forall j :: from <= j ==> PatternAt(p, s, j).None?
    decreases |s| - from
  {
    if from >= |s| then None
    else match PatternAt(p, s, from)
      case Some(t) => Some(Match(from, t))
      case None => Search(p, s, from + 1)
  }

  /** Positions where the pattern does not match are skipped. */
  lemma {:induction false} SearchSkips(p: Parser, s: string, from: nat, upto: nat)
    requires from <= upto <= |s|
    requires forall j :: from <= j < upto ==> PatternAt(p, s, j).None?
    ensures Search(p, s, from) == Search(p, s, upto)
    decreases upto
  {
    if from < upto {
      SearchSkips(p, s, from, upto - 1);
      SearchStep(p, s, upto - 1);
    }
  }

  /** One position where the pattern does not match is skipped. */
  lemma SearchStep(p: Parser, s: string, at: nat)
    requires at < |s| && PatternAt(p, s, at).None?
    ensures Search(p, s, at) == Search(p, s, at + 1)
  {
  }

  /** Python `str.strip()` of whitespace. */
  function Strip(s: string): (r: string)
    ensures |r| <= |s|
    ensures |r| > 0 ==> !IsSpace(r[0]) && !IsSpace(r[|r| - 1])
    ensures |s| > 0 && !IsSpace(s[0]) ==> |r| > 0 && r[0] == s[0]
    decreases |s|
  {
    if |s| == 0 then s
    else if IsSpace(s[0]) then Strip(s[1..])
    else if IsSpace(s[|s| - 1]) then Strip(s[..|s| - 1])
    else s
  }

  predicate AllDigits(s: string) {
    forall i :: 0 <= i < |s| ==> IsDigit(s[i])
  }

  /** A run of digits has no whitespace to strip. */
  lemma StripDigits(s: string)
    requires |s| > 0 && AllDigits(s)
    ensures Strip(s) == s
  {
    assert IsDigit(s[0]) && IsDigit(s[|s| - 1]);
  }

  /** The value of a string of decimal digits. */
  function DigitsValue(s: string): nat
    requires AllDigits(s)
    decreases |s|
  {
    if |s| == 0 then 0 else 10 * DigitsValue(s[..|s| - 1]) + (s[|s| - 1] as int - '0' as int)
  }

  /** Python 2 `int(t)` on a string: optional surrounding whitespace, an
      optional sign directly before one or more decimal digits; anything
      else is a `ValueError`. Whitespace between the sign and the digits,
      which Python also skips, is not accepted here. */
  function PyInt(t: string): (r: Result<int, Error>)
    ensures r.Failure? ==> r.error == YearNotInteger(t)
    ensures AllDigits(t) && |t| > 0 ==> r == Success(DigitsValue(t))
    ensures |t| >= 2 && (IsSpace(t[0]) || t[0] == '+') && AllDigits(t[1..]) ==> r == Success(DigitsValue(t[1..]))
    ensures |t| >= 2 && t[0] == '-' && AllDigits(t[1..]) ==> r == Success(-(DigitsValue(t[1..]) as int))
    ensures |t| > 0 && !IsSpace(t[0]) && t[0] != '+' && t[0] != '-' && !IsDigit(t[0]) ==> r.Failure?
  {
    var u := Strip(t);
    assert |t| >= 2 && IsSpace(t[0]) && AllDigits(t[1..]) ==> u == t[1..] by {
      if |t| >= 2 && IsSpace(t[0]) && AllDigits(t[1..]) {
        StripDigits(t[1..]);
      }
    }
    var signed := |u| > 0 && (u[0] == '+' || u[0] == '-');
    var digits := if signed then u[1..] else u;
    if |digits| > 0 && AllDigits(digits) then
      var v: int := DigitsValue(digits);
      Success(if signed && u[0] == '-' then -v else v)
    else
      Failure(YearNotInteger(t))
  }

  /** `Reference._populate`: author, year, `citeguess` and `citestring` from
      the citation detail. No match is the `TypeError` of `int(None)`; a match
      that is not an integer is the `ValueError` of `int`. */
  function Populate(p: Parser, detail: string): (r: Result<Citation, Error>)
    ensures Search(p, detail, 0).None? ==> r == Failure(YearMissing)
    ensures Search(p, detail, 0).Some? ==>
              (r.Success? <==> PyInt(Search(p, detail, 0).value.text).Success?)
    ensures Search(p, detail, 0).Some? && r.Failure? ==>
              r.error == YearNotInteger(Search(p, detail, 0).value.text)
    ensures r.Success? ==> r.value.text == detail
    ensures r.Success? ==> Text.Take(CorrectAuthor(Author(detail)), 3) + "EA" <= r.value.citeguess
  {
    var author := CorrectAuthor(Author(detail));
    match Search(p, detail, 0)
    case None => Failure(YearMissing)
    case Some(m) =>
      var year :- PyInt(m.text);
      Success(Citation(year,
                       Text.Take(author, 3) + "EA" + Text.Drop(m.text, 2),
                       author + " et al. (" + m.text + ")",
                       detail))
  }

  /** `Reference.__init__`: a record without a DOI is unpopulated whatever
      its text; one with a DOI is parsed, and a parse failure propagates. */
  function Resolve(p: Parser, doc: CitationDoc): (r: Result<Reference, Error>)
    ensures |doc.doi| == 0 ==> r == Success(Unpopulated)
    ensures |doc.doi| > 0 ==> (r.Success? <==> Populate(p, doc.detail).Success?)
    ensures |doc.doi| > 0 && r.Success? ==> r.value == Populated(Populate(p, doc.detail).value)
    ensures |doc.doi| > 0 && r.Failure? ==> r.error == Populate(p, doc.detail).error
  {
    if |doc.doi| == 0 then Success(Unpopulated)
    else
      var c :- Populate(p, doc.detail);
      Success(Populated(c))
  }

  /** The year is the integer value of the first match, the table string is
      "<author> et al. (" followed by the match and a closing parenthesis. */
  lemma PopulateShape(p: Parser, detail: string)
    requires Populate(p, detail).Success?
    ensures var c := Populate(p, detail).value;
            var author := CorrectAuthor(Author(detail));
            && Search(p, detail, 0).Some?
            && PyInt(Search(p, detail, 0).value.text) == Success(c.year)
            && author + " et al. (" <= c.citestring
            && c.citestring[|author| + 9..] == Search(p, detail, 0).value.text + ")"
            && c.citeguess == Text.Take(author, 3) + "EA" + Text.Drop(Search(p, detail, 0).value.text, 2)
  {
    var author := CorrectAuthor(Author(detail));
    var m := Search(p, detail, 0).value;
    var year := PyInt(m.text).value;
    PopulateFromMatch(p, detail, author, m, year);
    Enclosed(author + " et al. (", m.text);
  }

  /** `lead + t + ")"` starts with `lead`, and after it come `t` and ")". */
  lemma Enclosed(lead: string, t: string)
    ensures lead <= lead + t + ")"
    ensures (lead + t + ")")[|lead|..] == t + ")"
  {
    assert lead + t + ")" == lead + (t + ")");
  }

  /** A record by the malformed author is cited as "van Vuuren", in the
      table string and in the key alike. */
  lemma VanVuurenFix(p: Parser, detail: string)
    requires Text.Contains(Author(detail), MalformedAuthor)
    requires Populate(p, detail).Success?
    ensures "van Vuuren et al. (" <= Populate(p, detail).value.citestring
    ensures "vanEA" <= Populate(p, detail).value.citeguess
  {
    var c := Populate(p, detail).value;
    assert CorrectAuthor(Author(detail)) == CorrectedAuthor;
    PopulateShape(p, detail);
    VanVuurenStrings();
    assert CorrectedAuthor + " et al. (" <= c.citestring;
    assert Text.Take(CorrectedAuthor, 3) + "EA" <= c.citeguess;
  }

  lemma VanVuurenStrings()
    ensures CorrectedAuthor + " et al. (" == "van Vuuren et al. ("
    ensures Text.Take(CorrectedAuthor, 3) + "EA" == "vanEA"
  {
    assert Text.Take(CorrectedAuthor, 3) == "van";
  }

  /** `t` is `width` decimal digits whose value is `n`. */
  predicate ReadsAs(t: string, width: nat, n: int) {
    |t| == width && AllDigits(t) && DigitsValue(t) == n
  }

  lemma DigitsValueFour(a: char, b: char, c: char, d: char)
    requires IsDigit(a) && IsDigit(b) && IsDigit(c) && IsDigit(d)
    ensures AllDigits([a, b, c, d])
    ensures DigitsValue([a, b, c, d])
            == 1000 * (a as int - '0' as int) + 100 * (b as int - '0' as int)
               + 10 * (c as int - '0' as int) + (d as int - '0' as int)
  {
    assert [a, b, c, d][..3] == [a, b, c];
    assert [a, b, c][..2] == [a, b];
    assert [a, b][..1] == [a];
    assert [a][..0] == [];
    assert DigitsValue([a]) == a as int - '0' as int;
    assert DigitsValue([a, b]) == 10 * (a as int - '0' as int) + (b as int - '0' as int);
    assert DigitsValue([a, b, c])
           == 100 * (a as int - '0' as int) + 10 * (b as int - '0' as int) + (c as int - '0' as int);
  }

  /** The four-digit 20dd case: when the first match is a "20dd" run, the year is
      that number, the key is three letters of the (corrected) author, "EA"
      and the two digits, and the table string is "<author> et al. (20dd)". */
  lemma {:induction false} PopulateTwentiesYear(detail: string, i: nat, d1: char, d2: char)
    requires i + 4 <= |detail| && detail[i..i + 4] == ['2', '0', d1, d2]
    requires IsDigit(d1) && IsDigit(d2)
    requires forall j :: 0 <= j < i ==> PatternAt(AsWritten, detail, j).None?
    ensures var author := CorrectAuthor(Author(detail));
            Populate(AsWritten, detail)
            == Success(Citation(2000 + 10 * (d1 as int - '0' as int) + (d2 as int - '0' as int),
                                Text.Take(author, 3) + "EA" + [d1, d2],
                                author + " et al. (" + ['2', '0', d1, d2] + ")",
                                detail))
  {
    var run := ['2', '0', d1, d2];
    var author := CorrectAuthor(Author(detail));
    FirstTwentiesMatch(detail, i, d1, d2);
    TwentiesValue(d1, d2);
    PopulateFromMatch(AsWritten, detail, author, Match(i, run),
                      2000 + 10 * (d1 as int - '0' as int) + (d2 as int - '0' as int));
    assert Text.Drop(run, 2) == [d1, d2];
  }

  lemma FirstTwentiesMatch(detail: string, i: nat, d1: char, d2: char)
    requires i + 4 <= |detail| && detail[i..i + 4] == ['2', '0', d1, d2]
    requires IsDigit(d1) && IsDigit(d2)
    requires forall j :: 0 <= j < i ==> PatternAt(AsWritten, detail, j).None?
    ensures Search(AsWritten, detail, 0) == Some(Match(i, ['2', '0', d1, d2]))
  {
    TwentiesMatch(detail, i, d1, d2);
    SearchSkips(AsWritten, detail, 0, i);
  }

  /** A run "20dd" is matched where it starts, by the second alternative. */
  lemma TwentiesMatch(detail: string, i: nat, d1: char, d2: char)
    requires i + 4 <= |detail| && detail[i..i + 4] == ['2', '0', d1, d2]
    requires IsDigit(d1) && IsDigit(d2)
    ensures Search(AsWritten, detail, i) == Some(Match(i, ['2', '0', d1, d2]))
  {
    assert detail[i] == '2' && detail[i + 1] == '0' && detail[i + 2] == d1 && detail[i + 3] == d2;
    assert PatternAt(AsWritten, detail, i) == Some(['2', '0', d1, d2]);
  }

  /** "20dd" converts to 2000 + 10d + d. */
  lemma TwentiesValue(d1: char, d2: char)
    requires IsDigit(d1) && IsDigit(d2)
    ensures PyInt(['2', '0', d1, d2]) == Success(2000 + 10 * (d1 as int - '0' as int) + (d2 as int - '0' as int))
  {
    DigitsValueFour('2', '0', d1, d2);
  }

  /** With the intended pattern a citation is found exactly when the text
      holds a four-digit run starting "19" or "20"; its year lies in
      1900..2099, the table string ends with the year's four digits in
      parentheses, and the key ends with the year's last two digits. */
  lemma IntendedCitationShape(detail: string)
    ensures var r := Populate(Intended, detail);
            var author := CorrectAuthor(Author(detail));
            var lead := author + " et al. (";
            var keyLead := Text.Take(author, 3) + "EA";
            && (r.Failure? <==> forall j :: 0 <= j ==> PatternAt(Intended, detail, j).None?)
            && (r.Failure? ==> r.error == YearMissing)
            && (r.Success? ==>
                  && 1900 <= r.value.year <= 2099
                  && lead <= r.value.citestring && |r.value.citestring| == |lead| + 5
                  && ReadsAs(r.value.citestring[|lead|..|lead| + 4], 4, r.value.year)
                  && r.value.citestring[|lead| + 4] == ')'
                  && keyLead <= r.value.citeguess && |r.value.citeguess| == |keyLead| + 2
                  && ReadsAs(r.value.citeguess[|keyLead|..], 2, r.value.year % 100))
  {
    var m := Search(Intended, detail, 0);
    if m.Some? {
      var t := m.value.text;
      IntendedYear(t);
      var author := CorrectAuthor(Author(detail));
      var lead := author + " et al. (";
      var keyLead := Text.Take(author, 3) + "EA";
      var r := Populate(Intended, detail);
      assert r.value.citestring == lead + t + ")";
      assert r.value.citestring[|lead|..|lead| + 4] == t;
      assert r.value.citeguess == keyLead + t[2..];
      assert r.value.citeguess[|keyLead|..] == t[2..];
    }
  }

  /** A four-character match of the intended pattern reads as a year in
      1900..2099, and its last two characters read as the year modulo 100. */
  lemma IntendedYear(t: string)
    requires |t| == 4 && ((t[0] == '1' && t[1] == '9') || (t[0] == '2' && t[1] == '0'))
    requires IsDigit(t[2]) && IsDigit(t[3])
    ensures AllDigits(t)
    ensures PyInt(t) == Success(DigitsValue(t))
    ensures 1900 <= DigitsValue(t) <= 2099
    ensures ReadsAs(t[2..], 2, DigitsValue(t) % 100)
  {
    assert t == [t[0], t[1], t[2], t[3]];
    DigitsValueFour(t[0], t[1], t[2], t[3]);
    var hi := 10 * (t[0] as int - '0' as int) + (t[1] as int - '0' as int);
    var lo := 10 * (t[2] as int - '0' as int) + (t[3] as int - '0' as int);
    assert DigitsValue(t) == 100 * hi + lo;
    assert 0 <= lo < 100;
    ModHundred(hi, lo);
    TwoDigits(t[2], t[3]);
    assert t[2..] == [t[2], t[3]];
  }

  lemma ModHundred(hi: int, lo: int)
    requires 0 <= lo < 100
    ensures (100 * hi + lo) % 100 == lo
  {
  }

  lemma TwoDigits(a: char, b: char)
    requires IsDigit(a) && IsDigit(b)
    ensures ReadsAs([a, b], 2, 10 * (a as int - '0' as int) + (b as int - '0' as int))
  {
    assert [a, b][..1] == [a];
    assert [a][..0] == [];
    assert AllDigits([a]) && AllDigits([a, b]);
    assert DigitsValue([a]) == a as int - '0' as int;
    assert DigitsValue([a, b]) == 10 * DigitsValue([a]) + (b as int - '0' as int);
  }

  /** What `Populate` builds from the first match and its value. */
  lemma PopulateFromMatch(p: Parser, detail: string, author: string, m: Match, year: int)
    requires CorrectAuthor(Author(detail)) == author
    requires Search(p, detail, 0) == Some(m)
    requires PyInt(m.text) == Success(year)
    ensures Populate(p, detail)
            == Success(Citation(year, Text.Take(author, 3) + "EA" + Text.Drop(m.text, 2),
                                author + " et al. (" + m.text + ")", detail))
  {
  }

  /** The regular expression as written does not read years 1900-1999 as
      intended: after ", " it matches " 19", so "Smith, 1998" gets year 19
      and key "SmiEA9". The intended pattern reads 1998. */
  lemma NineteenthCenturyYearsMisparsed()
    ensures Populate(AsWritten, "Smith, 1998")
            == Success(Citation(19, "SmiEA9", "Smith et al. ( 19)", "Smith, 1998"))
  {
    SmithStrings();
    SmithAuthor();
    SmithSearch();
    NineteenValue();
    PopulateFromMatch(AsWritten, "Smith, 1998", "Smith", Match(6, " 19"), 19);
  }

  /** After "(" the pattern as written matches "(19", which `int` rejects,
      so the whole reference fails with a `ValueError`. */
  lemma ParenthesisedNineteenthCenturyYearFails()
    ensures Populate(AsWritten, "Smith (1998)") == Failure(YearNotInteger("(19"))
  {
    ParenthesisedSearch();
    ParenthesisedValue();
  }

  lemma ParenthesisedSearch()
    ensures Search(AsWritten, "Smith (1998)", 0) == Some(Match(6, "(19"))
  {
    var u := "Smith (1998)";
    assert u[6..9] == "(19";
    assert u[..8] == "Smith (1";
    SearchSkips(AsWritten, u, 0, 6);
  }

  lemma ParenthesisedValue()
    ensures PyInt("(19") == Failure(YearNotInteger("(19"))
  {
    assert Strip("(19") == "(19";
    assert !IsDigit('(');
  }

  /** The intended pattern reads "Smith, 1998" as 1998. */
  lemma NineteenthCenturyYearsIntended()
    ensures Populate(Intended, "Smith, 1998")
            == Success(Citation(1998, "SmiEA98", "Smith et al. (1998)", "Smith, 1998"))
  {
    SmithStrings();
    SmithAuthor();
    SmithSearch();
    YearValue();
    PopulateFromMatch(Intended, "Smith, 1998", "Smith", Match(7, "1998"), 1998);
  }

  /** The keys and table strings built for "Smith" from either match. */
  lemma SmithStrings()
    ensures Text.Take("Smith", 3) + "EA" + Text.Drop(" 19", 2) == "SmiEA9"
    ensures "Smith" + " et al. (" + " 19" + ")" == "Smith et al. ( 19)"
    ensures Text.Take("Smith", 3) + "EA" + Text.Drop("1998", 2) == "SmiEA98"
    ensures "Smith" + " et al. (" + "1998" + ")" == "Smith et al. (1998)"
  {
    assert Text.Take("Smith", 3) == "Smi";
    assert Text.Drop(" 19", 2) == "9";
    assert Text.Drop("1998", 2) == "98";
  }

  lemma SmithAuthor()
    ensures CorrectAuthor(Author("Smith, 1998")) == "Smith"
  {
    AuthorBeforeComma("Smith, 1998", 5);
    assert "Smith, 1998"[..5] == "Smith";
    Text.NotContainsLonger("Smith", MalformedAuthor);
  }

  /** Where each pattern first matches in "Smith, 1998". */
  lemma SmithSearch()
    ensures Search(AsWritten, "Smith, 1998", 0) == Some(Match(6, " 19"))
    ensures Search(Intended, "Smith, 1998", 0) == Some(Match(7, "1998"))
  {
    var s := "Smith, 1998";
    assert s[6..9] == " 19";
    assert s[7..11] == "1998";
    assert s[..8] == "Smith, 1";
    SearchSkips(AsWritten, s, 0, 6);
    SearchSkips(Intended, s, 0, 7);
  }

  lemma NineteenValue()
    ensures PyInt(" 19") == Success(19)
  {
    assert Strip(" 19") == "19";
    assert "19"[..1] == "1" && "1"[..0] == "";
  }

  lemma YearValue()
    ensures PyInt("1998") == Success(1998)
  {
    DigitsValueFour('1', '9', '9', '8');
    assert "1998" == ['1', '9', '9', '8'];
  }
}

=== FILE: layout.dfy ===
/** The layout half of `Doc._html` (experiment.py): how the related
    documents of a report are ordered for visual balance and paired into the
    rows of a two-column table, plus the header's comma-separated MIP label.

    Templates and HTML text are not modelled; the result is the row
    structure the template is rendered from. */
module Layout {
  import opened Wrappers
  import opened Errors
  import Sorting
  import Text

  /** A related document as the layout reads it: its name, long name,
      description and the long names of its additional requirements (the
      `monkey_additional` list attached in `Experiment.__init__`). */
  datatype Item = Item(name: string, longName: string, description: string, notes: seq<string>)

  /** The total length of a list of strings. */
  function TotalLength(notes: seq<string>): nat
    decreases |notes|
  {
    if |notes| == 0 then 0 else |notes[0]| + TotalLength(notes[1..])
  }

  /** The sort key of `sorter`: the description's length, plus the lengths of
      the additional notes when the report renders them. */
  function Weight(r: Item, withNotes: bool): (w: nat)
    ensures w >= |r.description|
    ensures !withNotes || |r.notes| == 0 ==> w == |r.description|
  {
    |r.description| + (if withNotes then TotalLength(r.notes) else 0)
  }

  /** Each additional note adds its length to the weight, as the loop of
      `sorter` does when the notes are rendered. */
  lemma WeightAddNote(r: Item, note: string)
    ensures Weight(r.(notes := r.notes + [note]), true) == Weight(r, true) + |note|
    ensures Weight(r.(notes := r.notes + [note]), false) == Weight(r, false)
  {
    TotalLengthSnoc(r.notes, note);
  }

  lemma {:induction false} TotalLengthSnoc(notes: seq<string>, note: string)
    ensures TotalLength(notes + [note]) == TotalLength(notes) + |note|
    decreases |notes|
  {
    if |notes| > 0 {
      assert (notes + [note])[1..] == notes[1..] + [note];
      TotalLengthSnoc(notes[1..], note);
    } else {
      assert notes + [note] == [note];
    }
  }

  /** Comparison of two items by weight. */
  function ByWeight(withNotes: bool): (Item, Item) -> bool {
    (a: Item, b: Item) => Weight(a, withNotes) <= Weight(b, withNotes)
  }

  lemma ByWeightTotal(withNotes: bool)
    ensures Sorting.TotalPreorder(ByWeight(withNotes))
  {
  }

  /** Ordering 'normal': heaviest first. A permutation of `related`, weights
      non-increasing, and items of equal weight in the reverse of their input
      order (stable ascending sort, then reversed). */
  function NormalOrder(related: seq<Item>, withNotes: bool): (r: seq<Item>)
    ensures multiset(r) == multiset(related)
    ensures forall i, j :: 0 <= i < j < |r| ==> Weight(r[i], withNotes) >= Weight(r[j], withNotes)
    ensures forall p :: Sorting.Peers(r, ByWeight(withNotes), p)
                        == Sorting.Reverse(Sorting.Peers(related, ByWeight(withNotes), p))
  {
    ByWeightTotal(withNotes);
    var sorted := Sorting.SortBy(related, ByWeight(withNotes));
    var r := Sorting.Reverse(sorted);
    Sorting.ReverseMultiset(sorted);
    forall p ensures Sorting.Peers(r, ByWeight(withNotes), p)
                     == Sorting.Reverse(Sorting.Peers(related, ByWeight(withNotes), p)) {
      Sorting.ReversePeers(sorted, ByWeight(withNotes), p);
    }
    assert forall i, j :: 0 <= i < j < |sorted| ==> Weight(sorted[i], withNotes) <= Weight(sorted[j], withNotes);
    r
  }

  /** The index of the first item of least weight. */
  function FirstLightest(s: seq<Item>, withNotes: bool): (k: nat)
    requires |s| > 0
    ensures k < |s|
    ensures forall j :: 0 <= j < |s| ==> Weight(s[k], withNotes) <= Weight(s[j], withNotes)
    ensures forall j :: 0 <= j < k ==> Weight(s[j], withNotes) > Weight(s[k], withNotes)
  {
    ByWeightTotal(withNotes);
    Sorting.FirstMinIndex(s, ByWeight(withNotes))
  }

  /** Ordering 'special': the first item stays first, the first of the
      lightest remaining items comes second, and the rest follow heaviest
      first. Fewer than two items is the `IndexError` of `ordered[0]`. */
  function SpecialOrder(related: seq<Item>, withNotes: bool): (r: Result<seq<Item>, Error>)
    ensures r.Failure? <==> |related| < 2
    ensures r.Failure? ==> r.error == IndexOutOfRange
    ensures r.Success? ==> multiset(r.value) == multiset(related)
    ensures r.Success? ==> |r.value| == |related| && r.value[0] == related[0]
    ensures r.Success? ==> r.value[1] == related[1 + FirstLightest(related[1..], withNotes)]
    ensures r.Success? ==>
      forall i, j :: 2 <= i < j < |r.value| ==> Weight(r.value[i], withNotes) >= Weight(r.value[j], withNotes)
    ensures r.Success? ==>
      var rest := related[1..];
      var k := FirstLightest(rest, withNotes);
      r.value[2..] == NormalOrder(rest[..k] + rest[k + 1..], withNotes)
  {
    if |related| < 2 then Failure(IndexOutOfRange)
    else
      SpecialShape(related, withNotes);
      Success(SpecialArrangement(related, withNotes))
  }

  /** `[related[0], ordered[0]] + reversed(ordered[1:])` with `ordered` the
      stable sort of `related[1:]` by weight. */
  function SpecialArrangement(related: seq<Item>, withNotes: bool): (r: seq<Item>)
    requires |related| >= 2
    ensures |r| == |related| && r[0] == related[0]
    ensures multiset(r) == multiset(related)
  {
    ByWeightTotal(withNotes);
    var rest := related[1..];
    var ordered := Sorting.SortBy(rest, ByWeight(withNotes));
    assert related == [related[0]] + rest;
    Arranged(related[0], ordered)
  }

  /** `[first, ordered[0]] + reversed(ordered[1:])`. */
  function Arranged<T>(first: T, ordered: seq<T>): (r: seq<T>)
    requires |ordered| > 0
    ensures |r| == |ordered| + 1 && r[0] == first
    ensures multiset(r) == multiset([first] + ordered)
  {
    SpecialMultiset(first, ordered, ordered);
    [first, ordered[0]] + Sorting.Reverse(ordered[1..])
  }

  lemma SpecialShape(related: seq<Item>, withNotes: bool)
    requires |related| >= 2
    ensures var r := SpecialArrangement(related, withNotes);
            && |r| == |related| && r[0] == related[0]
            && multiset(r) == multiset(related)
            && r[1] == related[1 + FirstLightest(related[1..], withNotes)]
            && forall i, j :: 2 <= i < j < |r| ==> Weight(r[i], withNotes) >= Weight(r[j], withNotes)
    ensures var r := SpecialArrangement(related, withNotes);
            var rest := related[1..];
            var k := FirstLightest(rest, withNotes);
            r[2..] == NormalOrder(rest[..k] + rest[k + 1..], withNotes)
  {
    SpecialHead(related, withNotes);
    SpecialTail(related, withNotes);
    SpecialTailIsNormal(related, withNotes);
  }

  /** From the third place on, the special arrangement is the 'normal' order
      of the later documents without the one placed second: ties there come
      out in reverse input order. */
  lemma SpecialTailIsNormal(related: seq<Item>, withNotes: bool)
    requires |related| >= 2
    ensures var rest := related[1..];
            var k := FirstLightest(rest, withNotes);
            SpecialArrangement(related, withNotes)[2..] == NormalOrder(rest[..k] + rest[k + 1..], withNotes)
  {
    ByWeightTotal(withNotes);
    var rest := related[1..];
    var k := FirstLightest(rest, withNotes);
    var ordered := Sorting.SortBy(rest, ByWeight(withNotes));
    SpecialArrangementIs(related, withNotes);
    ArrangedSuffix(related[0], ordered);
    FirstLightestIs(rest, withNotes);
    Sorting.SortTail(rest, ByWeight(withNotes));
    NormalOrderIs(rest[..k] + rest[k + 1..], withNotes);
  }

  lemma SpecialArrangementIs(related: seq<Item>, withNotes: bool)
    requires |related| >= 2
    ensures Sorting.TotalPreorder(ByWeight(withNotes))
    ensures SpecialArrangement(related, withNotes)
            == Arranged(related[0], Sorting.SortBy(related[1..], ByWeight(withNotes)))
  {
    ByWeightTotal(withNotes);
  }

  lemma FirstLightestIs(s: seq<Item>, withNotes: bool)
    requires |s| > 0
    ensures Sorting.TotalPreorder(ByWeight(withNotes))
    ensures FirstLightest(s, withNotes) == Sorting.FirstMinIndex(s, ByWeight(withNotes))
  {
    ByWeightTotal(withNotes);
  }

  lemma NormalOrderIs(related: seq<Item>, withNotes: bool)
    ensures Sorting.TotalPreorder(ByWeight(withNotes))
    ensures NormalOrder(related, withNotes) == Sorting.Reverse(Sorting.SortBy(related, ByWeight(withNotes)))
  {
    ByWeightTotal(withNotes);
  }

  lemma ArrangedSuffix<T>(first: T, ordered: seq<T>)
    requires |ordered| > 0
    ensures Arranged(first, ordered)[2..] == Sorting.Reverse(ordered[1..])
  {
  }

  /** The first two places of the special arrangement. */
  lemma SpecialHead(related: seq<Item>, withNotes: bool)
    requires |related| >= 2
    ensures var r := SpecialArrangement(related, withNotes);
            && |r| == |related| && r[0] == related[0]
            && r[1] == related[1 + FirstLightest(related[1..], withNotes)]
  {
    ByWeightTotal(withNotes);
    Sorting.SortHead(related[1..], ByWeight(withNotes));
  }

  /** From the third place on, the special arrangement is heaviest first. */
  lemma SpecialTail(related: seq<Item>, withNotes: bool)
    requires |related| >= 2
    ensures var r := SpecialArrangement(related, withNotes);
            forall i, j :: 2 <= i < j < |r| ==> Weight(r[i], withNotes) >= Weight(r[j], withNotes)
  {
    ByWeightTotal(withNotes);
    var ordered := Sorting.SortBy(related[1..], ByWeight(withNotes));
    ArrangedTail(related[0], ordered, withNotes);
  }

  lemma ArrangedTail(first: Item, ordered: seq<Item>, withNotes: bool)
    requires |ordered| > 0 && Sorting.Sorted(ordered, ByWeight(withNotes))
    ensures var r := [first, ordered[0]] + Sorting.Reverse(ordered[1..]);
            forall i, j :: 2 <= i < j < |r| ==> Weight(r[i], withNotes) >= Weight(r[j], withNotes)
  {
    var tail := Sorting.Reverse(ordered[1..]);
    var r := [first, ordered[0]] + tail;
    DescendingTail(ordered, withNotes);
    forall i, j | 2 <= i < j < |r|
      ensures Weight(r[i], withNotes) >= Weight(r[j], withNotes)
    {
      assert r[i] == tail[i - 2] && r[j] == tail[j - 2];
    }
  }

  lemma DescendingTail(ordered: seq<Item>, withNotes: bool)
    requires |ordered| > 0 && Sorting.Sorted(ordered, ByWeight(withNotes))
    ensures var tail := Sorting.Reverse(ordered[1..]);
            forall i, j :: 0 <= i < j < |tail| ==> Weight(tail[i], withNotes) >= Weight(tail[j], withNotes)
  {
    var le := ByWeight(withNotes);
    assert Sorting.Sorted(ordered[1..], le) by {
      forall i, j | 0 <= i < j < |ordered[1..]| ensures le(ordered[1..][i], ordered[1..][j]) {
        assert ordered[1..][i] == ordered[i + 1] && ordered[1..][j] == ordered[j + 1];
      }
    }
    Sorting.SortedReverse(ordered[1..], le);
  }

  lemma SpecialMultiset<T>(first: T, ordered: seq<T>, rest: seq<T>)
    requires |ordered| > 0 && multiset(ordered) == multiset(rest)
    ensures multiset([first, ordered[0]] + Sorting.Reverse(ordered[1..])) == multiset([first] + rest)
  {
    Sorting.ReverseMultiset(ordered[1..]);
    assert ordered == [ordered[0]] + ordered[1..];
  }

  /** The ordering step of a wide table: 'normal', 'special', or the
      `ValueError` for any other value. */
  function Order(related: seq<Item>, withNotes: bool, ordering: string): (r: Result<seq<Item>, Error>)
    ensures ordering != "normal" && ordering != "special" ==> r == Failure(BadOrdering(ordering))
    ensures ordering == "normal" ==> r == Success(NormalOrder(related, withNotes))
    ensures ordering == "special" ==> r == SpecialOrder(related, withNotes)
  {
    if ordering == "normal" then Success(NormalOrder(related, withNotes))
    else if ordering == "special" then SpecialOrder(related, withNotes)
    else Failure(BadOrdering(ordering))
  }

  /** Re-ordering the output of 'normal' with 'normal' flips the order of
      equal-weight items back, so a second call is not a no-op; a third call
      gives the first call's result again. */
  lemma {:induction false} NormalOrderPeriodTwo(related: seq<Item>, withNotes: bool)
    ensures NormalOrder(NormalOrder(NormalOrder(related, withNotes), withNotes), withNotes)
            == NormalOrder(related, withNotes)
  {
    var le := ByWeight(withNotes);
    ByWeightTotal(withNotes);
    var once := NormalOrder(related, withNotes);
    var twice := NormalOrder(once, withNotes);
    forall p ensures Sorting.Peers(twice, le, p) == Sorting.Peers(related, le, p) {
      Sorting.ReverseReverse(Sorting.Peers(related, le, p));
    }
    var sortedTwice := Sorting.SortBy(twice, le);
    Sorting.SortUnique(related, sortedTwice, le);
  }

  /** 'normal' on two items of equal weight swaps them. */
  lemma NormalOrderSwapsTies(a: Item, b: Item, withNotes: bool)
    requires Weight(a, withNotes) == Weight(b, withNotes)
    ensures NormalOrder([a, b], withNotes) == [b, a]
  {
    var le := ByWeight(withNotes);
    ByWeightTotal(withNotes);
    assert [a, b][1..] == [b];
    assert Sorting.SortBy([b], le) == [b];
    assert Sorting.SortBy([a, b], le) == [a, b];
  }

  /** Two distinct items of equal weight: 'normal' applied to its own output
      does not give that output back. */
  lemma NormalOrderNotIdempotent(a: Item, b: Item, withNotes: bool)
    requires a != b && Weight(a, withNotes) == Weight(b, withNotes)
    ensures NormalOrder(NormalOrder([a, b], withNotes), withNotes) != NormalOrder([a, b], withNotes)
  {
    NormalOrderSwapsTies(a, b, withNotes);
    NormalOrderSwapsTies(b, a, withNotes);
  }

  /** One row of a two-column table: Python's `(left, right)` from `zip`, or
      the trailing `[last, None]`. */
  datatype Pair<T> = Pair(left: T, right: Option<T>)

  /** Python `s[start::2]`. */
  function Stride<T>(s: seq<T>, start: nat): (r: seq<T>)
    ensures start <= |s| ==> |r| == (|s| - start + 1) / 2
    ensures forall k :: 0 <= k < |r| ==> start + 2 * k < |s| && r[k] == s[start + 2 * k]
    decreases |s| - start
  {
    if start >= |s| then [] else [s[start]] + Stride(s, start + 2)
  }

  /** Python 2 `zip(a, b)`: stops at the shorter input. */
  function Zip<T>(a: seq<T>, b: seq<T>): (r: seq<Pair<T>>)
    ensures |r| == if |a| <= |b| then |a| else |b|
    ensures forall k :: 0 <= k < |r| ==> r[k] == Pair(a[k], Some(b[k]))
    decreases |a|
  {
    if |a| == 0 || |b| == 0 then [] else [Pair(a[0], Some(b[0]))] + Zip(a[1..], b[1..])
  }

  /** `c` holds the consecutive pairs of `s`, with `None` in the last cell
      when `s` has odd length. */
  ghost predicate IsPairing<T>(s: seq<T>, c: seq<Pair<T>>) {
    && |c| == (|s| + 1) / 2
    && forall k :: 0 <= k < |c| ==>
         && 2 * k < |s| && c[k].left == s[2 * k]
         && c[k].right == if 2 * k + 1 < |s| then Some(s[2 * k + 1]) else None
  }

  /** The pairing of experiment.py:172-174: consecutive pairs, and a final
      `(last, None)` when the count is odd. */
  function MakePairs<T>(s: seq<T>): (r: seq<Pair<T>>)
    ensures IsPairing(s, r)
  {
    var evens := Stride(s, 0);
    var odds := Stride(s, 1 as nat);
    assert |odds| == |s| / 2 && |odds| <= |evens|;
    var pairs := Zip(evens, odds);
    assert forall k :: 0 <= k < |pairs| ==> pairs[k] == Pair(s[2 * k], Some(s[2 * k + 1]));
    PairingOfZip(s, pairs);
    if |pairs| * 2 != |s| then pairs + [Pair(s[|s| - 1], None)] else pairs
  }

  /** The zipped pairs, completed by `(last, None)` for an odd count, are the pairing. */
  lemma PairingOfZip<T>(s: seq<T>, pairs: seq<Pair<T>>)
    requires |pairs| == |s| / 2
    requires forall k :: 0 <= k < |pairs| ==> pairs[k] == Pair(s[2 * k], Some(s[2 * k + 1]))
    ensures IsPairing(s, if |pairs| * 2 != |s| then pairs + [Pair(s[|s| - 1], None)] else pairs)
  {
    if |pairs| * 2 != |s| {
      var c := pairs + [Pair(s[|s| - 1], None)];
      forall k | 0 <= k < |c|
        ensures 2 * k < |s| && c[k].left == s[2 * k]
        ensures c[k].right == if 2 * k + 1 < |s| then Some(s[2 * k + 1]) else None
      {
        if k < |pairs| {
          assert c[k] == pairs[k];
        }
      }
    }
  }

  /** The items of a list of rows, left to right, skipping empty cells. */
  function Flatten<T>(rows: seq<Pair<T>>): seq<T>
    decreases |rows|
  {
    if |rows| == 0 then []
    else
      [rows[0].left] + (if rows[0].right.Some? then [rows[0].right.value] else [])
      + Flatten(rows[1..])
  }

  /** Rows whose only empty cell, if any, is the last one. */
  predicate WellFormedRows<T>(rows: seq<Pair<T>>) {
    forall k :: 0 <= k < |rows| - 1 ==> rows[k].right.Some?
  }

  /** Reading the rows back gives the ordered list: pairing loses and
      duplicates nothing. */
  lemma {:induction false} FlattenMakePairs<T>(s: seq<T>)
    ensures Flatten(MakePairs(s)) == s
    decreases |s|
  {
    if |s| == 1 {
      assert MakePairs(s) == [Pair(s[0], None)];
    } else if |s| >= 2 {
      MakePairsCons(s[0], s[1], s[2..]);
      assert s == [s[0], s[1]] + s[2..];
      FlattenMakePairs(s[2..]);
    }
  }

  /** Pairing a list of two or more items starts with the pair of the first two. */
  lemma MakePairsCons<T>(x: T, y: T, rest: seq<T>)
    ensures MakePairs([x, y] + rest) == [Pair(x, Some(y))] + MakePairs(rest)
  {
    var r' := MakePairs(rest);
    PairingCons(x, y, rest, r');
    PairsDetermined([x, y] + rest, [Pair(x, Some(y))] + r');
  }

  lemma PairingCons<T>(x: T, y: T, rest: seq<T>, c: seq<Pair<T>>)
    requires IsPairing(rest, c)
    ensures IsPairing([x, y] + rest, [Pair(x, Some(y))] + c)
  {
    var s := [x, y] + rest;
    var c' := [Pair(x, Some(y))] + c;
    forall k | 0 <= k < |c'|
      ensures 2 * k < |s| && c'[k].left == s[2 * k]
      ensures c'[k].right == if 2 * k + 1 < |s| then Some(s[2 * k + 1]) else None
    {
      if k > 0 {
        PairingConsAt(x, y, rest, c, k);
      }
    }
  }

  /** Row `k > 0` of the extended pairing is row `k - 1` of the old one. */
  lemma PairingConsAt<T>(x: T, y: T, rest: seq<T>, c: seq<Pair<T>>, k: nat)
    requires IsPairing(rest, c) && 0 < k <= |c|
    ensures var s := [x, y] + rest;
            var c' := [Pair(x, Some(y))] + c;
            && 2 * k < |s| && c'[k].left == s[2 * k]
            && c'[k].right == if 2 * k + 1 < |s| then Some(s[2 * k + 1]) else None
  {
    var s := [x, y] + rest;
    var j := k - 1;
    assert ([Pair(x, Some(y))] + c)[k] == c[j];
    assert s[2 * k] == rest[2 * j];
    if 2 * k + 1 < |s| {
      assert s[2 * k + 1] == rest[2 * j + 1];
    }
  }

  /** The length and the cells determine the pairing. */
  lemma PairsDetermined<T>(s: seq<T>, c: seq<Pair<T>>)
    requires IsPairing(s, c)
    ensures MakePairs(s) == c
  {
    var r := MakePairs(s);
    assert forall k :: 0 <= k < |c| ==> r[k] == c[k];
  }

  /** The other direction: pairing the items of well-formed rows gives back
      those rows. */
  lemma {:induction false} MakePairsFlatten<T>(rows: seq<Pair<T>>)
    requires WellFormedRows(rows)
    ensures MakePairs(Flatten(rows)) == rows
    decreases |rows|
  {
    if |rows| > 0 {
      var rest := Flatten(rows[1..]);
      MakePairsFlatten(rows[1..]);
      if rows[0].right.Some? {
        assert Flatten(rows) == [rows[0].left, rows[0].right.value] + rest;
        MakePairsCons(rows[0].left, rows[0].right.value, rest);
        assert rows == [rows[0]] + rows[1..];
      } else {
        assert Flatten(rows) == [rows[0].left];
      }
    }
  }

  /** The rows a report renders: the related list as-is for one column, or
      the ordered list and its pairs for two columns. */
  datatype Table = OneColumn(rows: seq<Item>) | TwoColumn(ordered: seq<Item>, pairs: seq<Pair<Item>>)

  /** `Doc._html` without the templates. `withNotes` is the truthiness of the
      `additional` template text. A one-column table neither reorders nor
      looks at `ordering`; a two-column table orders (and may fail) and
      pairs the ordered list, which also becomes the report's related list. */
  function Tabulate(related: seq<Item>, wide: bool, withNotes: bool, ordering: string): (r: Result<Table, Error>)
    ensures !wide ==> r == Success(OneColumn(related))
    ensures wide ==> (r.Failure? <==> Order(related, withNotes, ordering).Failure?)
    ensures wide && r.Failure? ==> r.error == Order(related, withNotes, ordering).error
    ensures wide && r.Success? ==>
      && r.value.TwoColumn?
      && r.value.ordered == Order(related, withNotes, ordering).value
      && multiset(r.value.ordered) == multiset(related)
      && IsPairing(r.value.ordered, r.value.pairs)
      && Flatten(r.value.pairs) == r.value.ordered
      && |r.value.pairs| == (|related| + 1) / 2
  {
    if !wide then Success(OneColumn(related))
    else
      var ordered :- Order(related, withNotes, ordering);
      FlattenMakePairs(ordered);
      Success(TwoColumn(ordered, MakePairs(ordered)))
  }

  /** `Experiment.html` accepts an ordering but does not pass it on, so an
      experiment's requirements are always ordered 'normal' (weights counting
      the additional requirements) and the table never fails. */
  function ExperimentTable(requirements: seq<Item>, wide: bool, ordering: string): (r: Result<Table, Error>)
    ensures r.Success?
    ensures !wide ==> r.value == OneColumn(requirements)
    ensures wide ==> && r.value.TwoColumn?
                     && r.value.ordered == NormalOrder(requirements, true)
                     && IsPairing(r.value.ordered, r.value.pairs)
    ensures wide ==> forall i, j :: 0 <= i < j < |r.value.ordered| ==>
              Weight(r.value.ordered[i], true) >= Weight(r.value.ordered[j], true)
  {
    Tabulate(requirements, wide, true, "normal")
  }

  /** `Mip.html` (and `CMIP6.html`): no additional template, ordering 'normal'. */
  function ProjectTable(experiments: seq<Item>, wide: bool): (r: Result<Table, Error>)
    ensures r.Success?
    ensures !wide ==> r.value == OneColumn(experiments)
    ensures wide ==> && r.value.TwoColumn?
                     && r.value.ordered == NormalOrder(experiments, false)
                     && IsPairing(r.value.ordered, r.value.pairs)
    ensures wide ==> forall i, j :: 0 <= i < j < |r.value.ordered| ==>
              |r.value.ordered[i].description| >= |r.value.ordered[j].description|
  {
    Tabulate(experiments, wide, false, "normal")
  }

  /** The names joined with ", ", the reference the MIP label is checked against. */
  function Join(names: seq<string>, sep: string): string
    decreases |names|
  {
    if |names| == 0 then ""
    else if |names| == 1 then names[0]
    else names[0] + sep + Join(names[1..], sep)
  }

  /** `mips += m.name + ', '` over the related MIPs. */
  function AppendEach(names: seq<string>, sep: string): string
    decreases |names|
  {
    if |names| == 0 then "" else names[0] + sep + AppendEach(names[1..], sep)
  }

  /** The header label of an experiment: each MIP name followed by ", ", with
      the last two characters cut off. This is the names joined by ", ". */
  function MipsLabel(names: seq<string>): (r: string)
    ensures r == Join(names, ", ")
  {
    JoinByAppend(names, ", ");
    Text.DropLast(AppendEach(names, ", "), 2)
  }

  lemma {:induction false} JoinByAppend(names: seq<string>, sep: string)
    ensures |names| > 0 ==> AppendEach(names, sep) == Join(names, sep) + sep
    ensures |names| == 0 ==> AppendEach(names, sep) == ""
    decreases |names|
  {
    if |names| > 1 {
      JoinByAppend(names[1..], sep);
    }
  }
}

=== FILE: selection.dfy ===
/** The MIP summary built in `CMIP6.__init__` (experiment.py): for every
    sub-project, its citations that carry a DOI are parsed and sorted by
    year, one of the most recent is chosen (preferring one whose text names
    the MIP), and the chosen citation supplies the row's description, an
    entry of the reference list and a `\nocite` line. The rows are finally
    sorted by name.

    Retrieving documents from the ES-DOC archive is not modelled: a
    sub-project arrives with its citation records already fetched. */
module Selection {
  import opened Wrappers
  import opened Errors
  import Text
  import Sorting
  import opened Citations
  import Layout

  /** A sub-project of CMIP6 as the summary reads it: the MIP's name, its
      long name and the citation records it links to, in document order. */
  datatype SubProject = SubProject(name: string, longName: string, citations: seq<CitationDoc>)

  /** What the summary produces: the table rows, the reference texts (one per
      sub-project, in sub-project order) and the LaTeX `\nocite` block. */
  datatype Summary = Summary(related: seq<Layout.Item>, references: seq<string>, nocite: string)

  // ---------------------------------------------------------------------
  // Collecting the populated references of one sub-project
  // ---------------------------------------------------------------------

  predicate HasDoi(d: CitationDoc) {
    |d.doi| > 0
  }

  /** The records that carry a DOI, in document order. */
  function WithDoi(docs: seq<CitationDoc>): (r: seq<CitationDoc>)
    ensures |r| <= |docs|
    ensures forall d :: d in r ==> d in docs && HasDoi(d)
    ensures forall d :: d in docs && HasDoi(d) ==> d in r
    ensures |docs| == 1 ==> r == (if HasDoi(docs[0]) then docs else [])
    decreases |docs|
  {
    if |docs| == 0 then []
    else (if HasDoi(docs[0]) then [docs[0]] else []) + WithDoi(docs[1..])
  }

  /** Filtering distributes over concatenation: order and repeats are kept. */
  lemma {:induction false} WithDoiAppend(a: seq<CitationDoc>, b: seq<CitationDoc>)
    ensures WithDoi(a + b) == WithDoi(a) + WithDoi(b)
    decreases |a|
  {
    if |a| > 0 {
      assert (a + b)[0] == a[0];
      assert (a + b)[1..] == a[1..] + b;
      WithDoiAppend(a[1..], b);
    } else {
      assert a + b == b;
    }
  }

  /** `f` applied to every element in order, stopping at the first failure. */
  function MapAll<A, B>(f: A -> Result<B, Error>, xs: seq<A>): (r: Result<seq<B>, Error>)
    ensures r.Failure? <==> exists i :: 0 <= i < |xs| && f(xs[i]).Failure?
    ensures r.Failure? ==>
              exists i :: 0 <= i < |xs| && f(xs[i]).Failure? && r.error == f(xs[i]).error
                          && forall j :: 0 <= j < i ==> f(xs[j]).Success?
    ensures r.Success? ==> |r.value| == |xs| && forall i :: 0 <= i < |xs| ==> Success(r.value[i]) == f(xs[i])
    decreases |xs|
  {
    if |xs| == 0 then Success([])
    else
      var y :- f(xs[0]);
      var rest :- MapAll(f, xs[1..]);
      assert forall j :: 1 <= j < |xs| ==> xs[j] == xs[1..][j - 1];
      Success([y] + rest)
  }

  /** A failure at `i` after successes everywhere before it is the failure
      of the whole map. */
  lemma MapAllFirstFailure<A, B>(f: A -> Result<B, Error>, xs: seq<A>, i: nat)
    requires i < |xs| && f(xs[i]).Failure?
    requires forall j :: 0 <= j < i ==> f(xs[j]).Success?
    ensures MapAll(f, xs) == Failure(f(xs[i]).error)
  {
    var r := MapAll(f, xs);
    var i' :| 0 <= i' < |xs| && f(xs[i']).Failure? && r.error == f(xs[i']).error
              && forall j :: 0 <= j < i' ==> f(xs[j]).Success?;
    assert i' == i;
  }

  /** Successes everywhere make the map succeed with their values. */
  lemma MapAllSuccess<A, B>(f: A -> Result<B, Error>, xs: seq<A>, ys: seq<B>)
    requires |ys| == |xs|
    requires forall j :: 0 <= j < |xs| ==> f(xs[j]) == Success(ys[j])
    ensures MapAll(f, xs) == Success(ys)
  {
    var r := MapAll(f, xs);
    assert r.Success?;
    assert forall j :: 0 <= j < |xs| ==> r.value[j] == ys[j];
    assert r.value == ys;
  }

  /** `Resolve` under one parser, as a function value. */
  function ResolverOf(p: Parser): CitationDoc -> Result<Reference, Error> {
    (d: CitationDoc) => Resolve(p, d)
  }

  /** The citations of the populated references, in order. */
  function Kept(refs: seq<Reference>): seq<Citation>
    decreases |refs|
  {
    if |refs| == 0 then []
    else (if refs[0].Populated? then [refs[0].citation] else []) + Kept(refs[1..])
  }

  /** Each citation wrapped as a successful parse. */
  function SuccessAll(cs: seq<Citation>): (r: seq<Result<Citation, Error>>)
    ensures |r| == |cs|
    ensures forall i :: 0 <= i < |cs| ==> r[i] == Success(cs[i])
    decreases |cs|
  {
    if |cs| == 0 then [] else [Success(cs[0])] + SuccessAll(cs[1..])
  }

  /** The parse of each record's detail. */
  function ParseAll(p: Parser, docs: seq<CitationDoc>): (r: seq<Result<Citation, Error>>)
    ensures |r| == |docs|
    ensures forall i :: 0 <= i < |docs| ==> r[i] == Populate(p, docs[i].detail)
    decreases |docs|
  {
    if |docs| == 0 then [] else [Populate(p, docs[0].detail)] + ParseAll(p, docs[1..])
  }

  /** The populated references are exactly those of the records with a DOI,
      each holding its record's parse. */
  lemma {:induction false} KeptWithDoi(p: Parser, docs: seq<CitationDoc>, refs: seq<Reference>)
    requires |refs| == |docs|
    requires forall i :: 0 <= i < |docs| ==> Resolve(p, docs[i]) == Success(refs[i])
    ensures SuccessAll(Kept(refs)) == ParseAll(p, WithDoi(docs))
    decreases |docs|
  {
    if |docs| > 0 {
      assert forall i :: 0 <= i < |docs| - 1 ==> docs[1..][i] == docs[i + 1] && refs[1..][i] == refs[i + 1];
      KeptWithDoi(p, docs[1..], refs[1..]);
      assert Resolve(p, docs[0]) == Success(refs[0]);
      if HasDoi(docs[0]) {
        var c := refs[0].citation;
        assert Kept(refs) == [c] + Kept(refs[1..]);
        assert WithDoi(docs) == [docs[0]] + WithDoi(docs[1..]);
        assert SuccessAll([c] + Kept(refs[1..])) == [Success(c)] + SuccessAll(Kept(refs[1..]));
        assert ParseAll(p, [docs[0]] + WithDoi(docs[1..]))
               == [Populate(p, docs[0].detail)] + ParseAll(p, WithDoi(docs[1..]));
      } else {
        assert Kept(refs) == Kept(refs[1..]);
        assert WithDoi(docs) == WithDoi(docs[1..]);
      }
    }
  }

  /** The inner loop over `mdoc.citations`: every record is turned into a
      `Reference` (the first parse failure propagates) and the populated ones
      are kept, in order. The kept citations are exactly the parses of the
      records with a DOI. */
  function Populated(p: Parser, docs: seq<CitationDoc>): (r: Result<seq<Citation>, Error>)
    ensures r.Failure? <==> exists i :: 0 <= i < |docs| && Resolve(p, docs[i]).Failure?
    ensures r.Failure? ==>
              exists i :: 0 <= i < |docs| && Resolve(p, docs[i]).Failure?
                          && r.error == Resolve(p, docs[i]).error
                          && forall j :: 0 <= j < i ==> Resolve(p, docs[j]).Success?
    ensures r.Success? ==>
              && |r.value| == |WithDoi(docs)|
              && forall i :: 0 <= i < |r.value| ==> Success(r.value[i]) == Populate(p, WithDoi(docs)[i].detail)
  {
    var refs :- MapAll(ResolverOf(p), docs);
    KeptWithDoi(p, docs, refs);
    assert |SuccessAll(Kept(refs))| == |ParseAll(p, WithDoi(docs))|;
    Success(Kept(refs))
  }

  // ---------------------------------------------------------------------
  // Choosing the citation
  // ---------------------------------------------------------------------

  /** `citations.sort(key=lambda cc: cc.year)`. */
  function ByYear(): (Citation, Citation) -> bool {
    (a: Citation, b: Citation) => a.year <= b.year
  }

  lemma ByYearTotal()
    ensures Sorting.TotalPreorder(ByYear())
  {
  }

  /** Position `i` of the year-sorted list is one the loop picks up: as
      recent as the last citation, with the MIP's name in its text. */
  predicate Qualifies(cits: seq<Citation>, name: string, i: nat)
    requires i < |cits|
  {
    cits[i].year == cits[|cits| - 1].year && Text.Contains(cits[i].text, name)
  }

  /** The declarative choice: the last qualifying position before the final
      one, or the final one when no earlier position qualifies. */
  predicate IsChoice(cits: seq<Citation>, name: string, k: nat) {
    && k < |cits|
    && (if exists i :: 0 <= i < |cits| - 1 && Qualifies(cits, name, i)
        then k < |cits| - 1 && Qualifies(cits, name, k)
             && forall j :: k < j < |cits| - 1 ==> !Qualifies(cits, name, j)
        else k == |cits| - 1)
  }

  /** The reference search: the nearest qualifying position below `upto`,
      searching downwards, or -1 when there is none. */
  function LastQualifying(cits: seq<Citation>, name: string, upto: nat): (r: int)
    requires upto <= |cits|
    ensures -1 <= r < upto
    ensures r >= 0 ==> Qualifies(cits, name, r)
    ensures forall j :: r < j < upto ==> !Qualifies(cits, name, j)
    decreases upto
  {
    if upto == 0 then -1
    else if Qualifies(cits, name, upto - 1) then upto - 1
    else LastQualifying(cits, name, upto - 1)
  }

  /** The chosen index: Python's `citations[index]` with the sentinel -1
      meaning the last element, which raises `IndexError` on an empty list.
      A single citation is chosen whatever its text. */
  function ChosenIndex(cits: seq<Citation>, name: string): (r: Result<nat, Error>)
    ensures r.Failure? <==> |cits| == 0
    ensures r.Failure? ==> r.error == IndexOutOfRange
    ensures r.Success? ==> IsChoice(cits, name, r.value)
  {
    if |cits| == 0 then Failure(IndexOutOfRange)
    else
      var i := LastQualifying(cits, name, |cits| - 1);
      Success(if i < 0 then |cits| - 1 else i)
  }

  /** The loop as written: `index` starts at -1 and is overwritten by every
      qualifying position, scanning upwards; the loop only runs for two or
      more citations. It agrees with the downward search. */
  method SelectIndex(cits: seq<Citation>, name: string) returns (r: Result<nat, Error>)
    ensures r == ChosenIndex(cits, name)
    ensures r.Success? ==> IsChoice(cits, name, r.value)
  {
    var index := -1;
    if |cits| > 1 {
      var year := cits[|cits| - 1].year;
      var i := 0;
      while i < |cits| - 1
        invariant 0 <= i <= |cits| - 1
        invariant index == LastQualifying(cits, name, i)
      {
        if cits[i].year == year && Text.Contains(cits[i].text, name) {
          index := i;
        }
        i := i + 1;
      }
    }
    if |cits| == 0 {
      r := Failure(IndexOutOfRange);
    } else {
      r := Success(if index < 0 then |cits| - 1 else index);
    }
  }

  /** Any two indices satisfying the declarative choice are the same: the
      choice is determined by the list and the name. */
  lemma ChoiceUnique(cits: seq<Citation>, name: string, k1: nat, k2: nat)
    requires IsChoice(cits, name, k1) && IsChoice(cits, name, k2)
    ensures k1 == k2
  {
  }

  /** On a year-sorted list the chosen citation is one of the most recent,
      and it names the MIP unless no earlier most-recent citation does. */
  lemma ChoiceIsMostRecent(cits: seq<Citation>, name: string, k: nat)
    requires Sorting.Sorted(cits, ByYear())
    requires IsChoice(cits, name, k)
    ensures forall i :: 0 <= i < |cits| ==> cits[i].year <= cits[k].year
    ensures (exists i :: 0 <= i < |cits| - 1 && cits[i].year == cits[|cits| - 1].year
                         && Text.Contains(cits[i].text, name))
            ==> Text.Contains(cits[k].text, name)
  {
    if exists i :: 0 <= i < |cits| - 1 && cits[i].year == cits[|cits| - 1].year
                   && Text.Contains(cits[i].text, name) {
      var i :| 0 <= i < |cits| - 1 && cits[i].year == cits[|cits| - 1].year
               && Text.Contains(cits[i].text, name);
      assert Qualifies(cits, name, i);
    }
    forall i | 0 <= i < |cits|
      ensures cits[i].year <= cits[k].year
    {
      if i < |cits| - 1 {
        assert ByYear()(cits[i], cits[|cits| - 1]);
      }
    }
  }

  /** The citation a sub-project is summarised by: its populated citations
      sorted by year (stably), then the choice above. No populated citation
      is the `IndexError` of `citations[-1]`. */
  function Canonical(p: Parser, sub: SubProject): (r: Result<Citation, Error>)
    ensures Populated(p, sub.citations).Failure? ==> r == Failure(Populated(p, sub.citations).error)
    ensures Populated(p, sub.citations).Success? ==>
              var cits := Populated(p, sub.citations).value;
              && (r.Failure? <==> |cits| == 0)
              && (r.Failure? ==> r.error == IndexOutOfRange)
              && (r.Success? ==> r.value in cits && forall c :: c in cits ==> c.year <= r.value.year)
  {
    var cits :- Populated(p, sub.citations);
    ByYearTotal();
    var sorted := Sorting.SortBy(cits, ByYear());
    var k :- ChosenIndex(sorted, sub.name);
    ChoiceIsMostRecent(sorted, sub.name, k);
    assert sorted[k] in multiset(cits);
    assert forall c :: c in cits ==> c in multiset(sorted);
    Success(sorted[k])
  }

  // ---------------------------------------------------------------------
  // The summary
  // ---------------------------------------------------------------------

  /** Extending the successes one element further. */
  lemma MapPrefixSnoc<A, B>(f: A -> Result<B, Error>, xs: seq<A>, ys: seq<B>, y: B)
    requires |ys| < |xs|
    requires forall j :: 0 <= j < |ys| ==> f(xs[j]) == Success(ys[j])
    requires f(xs[|ys|]) == Success(y)
    ensures forall j :: 0 <= j < |ys| + 1 ==> f(xs[j]) == Success((ys + [y])[j])
  {
  }

  /** The chosen citation of every sub-project, in order; the first failing
      sub-project's error propagates. */
  function ChosenAll(p: Parser, subs: seq<SubProject>): Result<seq<Citation>, Error> {
    MapAll(CanonicalOf(p), subs)
  }

  /** `Canonical` under one parser, as a function value. */
  function CanonicalOf(p: Parser): SubProject -> Result<Citation, Error> {
    (sub: SubProject) => Canonical(p, sub)
  }

  /** The row of a sub-project: its description is overwritten with the long
      name, " - " and the chosen citation's table string. */
  function Row(sub: SubProject, c: Citation): (r: Layout.Item)
    ensures r.name == sub.name
    ensures sub.longName + " - " <= r.description
    ensures r.description[|sub.longName| + 3..] == c.citestring
  {
    Layout.Item(sub.name, sub.longName, sub.longName + " - " + c.citestring, [])
  }

  /** The rows of the sub-projects, before sorting. */
  function Rows(subs: seq<SubProject>, cs: seq<Citation>): (r: seq<Layout.Item>)
    requires |subs| == |cs|
    ensures |r| == |subs|
    decreases |subs|
  {
    if |subs| == 0 then []
    else Rows(subs[..|subs| - 1], cs[..|cs| - 1]) + [Row(subs[|subs| - 1], cs[|cs| - 1])]
  }

  /** Row `i` is the row of sub-project `i` and its chosen citation. */
  lemma {:induction false} RowsAt(subs: seq<SubProject>, cs: seq<Citation>, i: nat)
    requires |subs| == |cs| && i < |subs|
    ensures Rows(subs, cs)[i] == Row(subs[i], cs[i])
    decreases |subs|
  {
    if i < |subs| - 1 {
      RowsAt(subs[..|subs| - 1], cs[..|cs| - 1], i);
    }
  }

  /** One more sub-project adds its row at the end. */
  lemma RowsSnoc(subs: seq<SubProject>, i: nat, cs: seq<Citation>, c: Citation)
    requires i < |subs| && |cs| == i
    ensures Rows(subs[..i + 1], cs + [c]) == Rows(subs[..i], cs) + [Row(subs[i], c)]
  {
    assert subs[..i + 1][..i] == subs[..i];
    assert (cs + [c])[..i] == cs;
  }

  lemma NociteSnoc(cs: seq<Citation>, c: Citation)
    ensures NociteBlock(cs + [c]) == NociteBlock(cs) + NociteLine(c)
  {
    assert (cs + [c])[..|cs|] == cs;
  }

  /** One line of the `\nocite` block. */
  function NociteLine(c: Citation): string {
    "\\nocite{" + c.citeguess + "}\n"
  }

  /** The `\nocite` lines of the chosen citations, in order. */
  function NociteBlock(cs: seq<Citation>): string
    decreases |cs|
  {
    if |cs| == 0 then "" else NociteBlock(cs[..|cs| - 1]) + NociteLine(cs[|cs| - 1])
  }

  /** The block of a concatenation is the concatenation of the blocks. */
  lemma {:induction false} NociteBlockAppend(a: seq<Citation>, b: seq<Citation>)
    ensures NociteBlock(a + b) == NociteBlock(a) + NociteBlock(b)
    decreases |b|
  {
    if |b| > 0 {
      NociteBlockAppend(a, b[..|b| - 1]);
      assert (a + b)[..|a + b| - 1] == a + b[..|b| - 1];
    } else {
      assert a + b == a;
    }
  }

  /** The block holds one line per citation, `\nocite{key}` and a newline. */
  lemma {:induction false} NociteBlockLength(cs: seq<Citation>)
    ensures |NociteBlock(cs)| == 10 * |cs| + TotalKeyLength(cs)
    decreases |cs|
  {
    if |cs| > 0 {
      NociteBlockLength(cs[..|cs| - 1]);
    }
  }

  function TotalKeyLength(cs: seq<Citation>): nat
    decreases |cs|
  {
    if |cs| == 0 then 0 else TotalKeyLength(cs[..|cs| - 1]) + |cs[|cs| - 1].citeguess|
  }

  /** Comparison of two rows by name, as Python compares strings. */
  function ByName(): (Layout.Item, Layout.Item) -> bool {
    (a: Layout.Item, b: Layout.Item) => Text.LexLe(a.name, b.name)
  }

  lemma ByNameTotal()
    ensures Sorting.TotalPreorder(ByName())
  {
    forall a: Layout.Item, b: Layout.Item
      ensures ByName()(a, b) || ByName()(b, a)
    {
      Text.LexTotal(a.name, b.name);
    }
    forall a: Layout.Item, b: Layout.Item, c: Layout.Item | ByName()(a, b) && ByName()(b, c)
      ensures ByName()(a, c)
    {
      Text.LexTransitive(a.name, b.name, c.name);
    }
  }

  /** The body of the loop over the sub-projects, up to the chosen
      citation: collect, sort by year, select. */
  method ChooseCitation(p: Parser, sub: SubProject) returns (r: Result<Citation, Error>)
    ensures r == CanonicalOf(p)(sub)
  {
    var cits :- Populated(p, sub.citations);
    ByYearTotal();
    var sorted := Sorting.SortBy(cits, ByYear());
    var k :- SelectIndex(sorted, sub.name);
    r := Success(sorted[k]);
  }

  /** `self.related.sort(key=lambda mm: mm.name)`: a stable sort of the rows
      by name. */
  function SortByName(rows: seq<Layout.Item>): (r: seq<Layout.Item>)
    ensures multiset(r) == multiset(rows)
    ensures forall i, j :: 0 <= i < j < |r| ==> Text.LexLe(r[i].name, r[j].name)
    ensures forall q :: Sorting.Peers(r, ByName(), q) == Sorting.Peers(rows, ByName(), q)
  {
    ByNameTotal();
    var r := Sorting.SortBy(rows, ByName());
    assert forall i, j :: 0 <= i < j < |r| ==> ByName()(r[i], r[j]);
    r
  }

  /** What the loop over the sub-projects has gathered: the chosen
      citations, the unsorted rows, the reference list and the `\nocite`
      block. */
  datatype Gathered = Gathered(chosen: seq<Citation>, rows: seq<Layout.Item>,
                               references: seq<string>, nocite: string)

  /** The loop of `CMIP6.__init__` over the sub-projects. It fails with the
      first sub-project whose citation cannot be chosen; otherwise it has
      chosen every sub-project's canonical citation, built one row per
      sub-project, listed the chosen texts and written one `\nocite` line per
      sub-project, all in sub-project order. */
  method Gather(p: Parser, subs: seq<SubProject>) returns (r: Result<Gathered, Error>)
    ensures r.Failure? ==> ChosenAll(p, subs) == Failure(r.error)
    ensures r.Success? ==>
              && ChosenAll(p, subs) == Success(r.value.chosen)
              && r.value.rows == Rows(subs, r.value.chosen)
              && |r.value.references| == |subs|
              && (forall i :: 0 <= i < |subs| ==> r.value.references[i] == r.value.chosen[i].text)
              && r.value.nocite == NociteBlock(r.value.chosen)
  {
    var g := Gathered([], [], [], "");
    var i := 0;
    while i < |subs|
      invariant i <= |subs| && GatheredUpTo(CanonicalOf(p), subs, i, g)
    {
      var next := GatherOne(p, subs, i, g);
      if next.Failure? {
        MapAllFirstFailure(CanonicalOf(p), subs, i);
        return Failure(next.error);
      }
      g := next.value;
      i := i + 1;
    }
    assert subs[..i] == subs;
    MapAllSuccess(CanonicalOf(p), subs, g.chosen);
    r := Success(g);
  }

  /** The loop's invariant: `g` holds what the first `i` sub-projects
      contribute. */
  ghost predicate GatheredUpTo(f: SubProject -> Result<Citation, Error>, subs: seq<SubProject>, i: nat, g: Gathered) {
    && i <= |subs| && |g.chosen| == i && |g.references| == i
    && (forall j :: 0 <= j < i ==> f(subs[j]) == Success(g.chosen[j]))
    && (forall j :: 0 <= j < i ==> g.references[j] == g.chosen[j].text)
    && g.rows == Rows(subs[..i], g.chosen)
    && g.nocite == NociteBlock(g.chosen)
  }

  /** One pass of the loop: sub-project `i`'s citation is chosen (or its
      error returned) and its row, reference text and `\nocite` line are
      appended. */
  method GatherOne(p: Parser, subs: seq<SubProject>, i: nat, g: Gathered) returns (r: Result<Gathered, Error>)
    requires i < |subs| && GatheredUpTo(CanonicalOf(p), subs, i, g)
    ensures r.Failure? ==> CanonicalOf(p)(subs[i]) == Failure(r.error)
    ensures r.Success? ==> GatheredUpTo(CanonicalOf(p), subs, i + 1, r.value)
  {
    var chosen := ChooseCitation(p, subs[i]);
    if chosen.Failure? {
      return Failure(chosen.error);
    }
    var c := chosen.value;
    ExtendGathered(CanonicalOf(p), subs, i, g, c);
    r := Success(Extend(g, subs[i], c));
  }

  /** Appending one sub-project's contribution. */
  function Extend(g: Gathered, sub: SubProject, c: Citation): Gathered {
    Gathered(g.chosen + [c], g.rows + [Row(sub, c)], g.references + [c.text], g.nocite + NociteLine(c))
  }

  lemma ExtendGathered(f: SubProject -> Result<Citation, Error>, subs: seq<SubProject>, i: nat, g: Gathered, c: Citation)
    requires i < |subs| && GatheredUpTo(f, subs, i, g)
    requires f(subs[i]) == Success(c)
    ensures GatheredUpTo(f, subs, i + 1, Extend(g, subs[i], c))
  {
    var g' := Extend(g, subs[i], c);
    RowsSnoc(subs, i, g.chosen, c);
    NociteSnoc(g.chosen, c);
    MapPrefixSnoc(f, subs, g.chosen, c);
    assert forall j :: 0 <= j < i + 1 ==> g'.references[j] == g'.chosen[j].text;
  }

  /** `CMIP6.__init__`: the loop over the sub-projects, then the sort of the
      rows by name. The summary fails exactly when some sub-project's
      citation cannot be chosen, with the first such error. Otherwise the
      reference list and the `\nocite` block follow the sub-projects' order
      and the rows are the sub-projects' rows, sorted by name, rows with the
      same name keeping their order. */
  method BuildSummary(p: Parser, subs: seq<SubProject>) returns (r: Result<Summary, Error>)
    ensures r.Failure? <==> exists i :: 0 <= i < |subs| && Canonical(p, subs[i]).Failure?
    ensures r.Failure? ==> r == Failure(ChosenAll(p, subs).error)
    ensures r.Success? ==>
              var cs := ChosenAll(p, subs).value;
              && |r.value.references| == |subs|
              && (forall i :: 0 <= i < |subs| ==> r.value.references[i] == cs[i].text)
              && r.value.nocite == NociteBlock(cs)
              && multiset(r.value.related) == multiset(Rows(subs, cs))
              && (forall i, j :: 0 <= i < j < |r.value.related| ==>
                    Text.LexLe(r.value.related[i].name, r.value.related[j].name))
              && forall q :: Sorting.Peers(r.value.related, ByName(), q)
                             == Sorting.Peers(Rows(subs, cs), ByName(), q)
  {
    var g :- Gather(p, subs);
    r := Success(Summary(SortByName(g.rows), g.references, g.nocite));
  }
}

=== FILE: sorting.dfy ===
/** A stable sort, as Python's `sorted(xs, key=k)` and `xs.sort(key=k)`
    perform it, written as an insertion sort over a comparison `le`
    (`le(a, b)` meaning `k(a) <= k(b)`).

    Stability is stated through `Peers`: the elements equivalent to a pivot,
    in the order they occur. A stable sort keeps every such group in input
    order, and `SortedPeersUnique` shows that this, with sortedness, pins the
    output down completely. */
module Sorting {

  /** Every two elements compare, and comparison chains. */
  ghost predicate TotalPreorder<T(!new)>(le: (T, T) -> bool) {
    && (forall a, b :: le(a, b) || le(b, a))
    && (forall a, b, c :: le(a, b) && le(b, c) ==> le(a, c))
  }

  /** `a` and `b` have equal keys. */
  predicate Equiv<T>(le: (T, T) -> bool, a: T, b: T) {
    le(a, b) && le(b, a)
  }

  predicate Sorted<T>(s: seq<T>, le: (T, T) -> bool) {
    forall i, j :: 0 <= i < j < |s| ==> le(s[i], s[j])
  }

  /** The elements of `s` whose key equals the key of `p`, in the order of `s`. */
  function Peers<T>(s: seq<T>, le: (T, T) -> bool, p: T): seq<T>
    decreases |s|
  {
    if |s| == 0 then []
    else (if Equiv(le, s[0], p) then [s[0]] else []) + Peers(s[1..], le, p)
  }

  /** Python `list(reversed(s))`. */
  function Reverse<T>(s: seq<T>): (r: seq<T>)
    ensures |r| == |s|
    ensures forall i :: 0 <= i < |s| ==> r[i] == s[|s| - 1 - i]
    decreases |s|
  {
    if |s| == 0 then [] else Reverse(s[1..]) + [s[0]]
  }

  /** Inserts `x` in front of the first element whose key is not below its own. */
  function Insert<T>(x: T, s: seq<T>, le: (T, T) -> bool): seq<T>
    decreases |s|
  {
    if |s| == 0 || le(x, s[0]) then [x] + s else [s[0]] + Insert(x, s[1..], le)
  }

  /** The stable sort: a permutation of `s`, ascending, with every group of
      equal keys in its input order. */
  function SortBy<T(==,!new)>(s: seq<T>, le: (T, T) -> bool): (r: seq<T>)
    requires TotalPreorder(le)
    ensures |r| == |s|
    ensures multiset(r) == multiset(s)
    ensures Sorted(r, le)
    ensures forall p :: Peers(r, le, p) == Peers(s, le, p)
    decreases |s|
  {
    if |s| == 0 then []
    else
      var t := SortBy(s[1..], le);
      InsertSpec(s[0], t, le);
      assert s == [s[0]] + s[1..];
      Insert(s[0], t, le)
  }

  lemma InsertSpec<T(!new)>(x: T, s: seq<T>, le: (T, T) -> bool)
    requires TotalPreorder(le) && Sorted(s, le)
    ensures multiset(Insert(x, s, le)) == multiset(s) + multiset{x}
    ensures |Insert(x, s, le)| == |s| + 1
    ensures Sorted(Insert(x, s, le), le)
    ensures forall p :: Peers(Insert(x, s, le), le, p)
                        == (if Equiv(le, x, p) then [x] else []) + Peers(s, le, p)
  {
    InsertMultiset(x, s, le);
    InsertSorted(x, s, le);
    forall p ensures Peers(Insert(x, s, le), le, p)
                     == (if Equiv(le, x, p) then [x] else []) + Peers(s, le, p) {
      InsertPeers(x, s, le, p);
    }
  }

  lemma {:induction false} InsertMultiset<T>(x: T, s: seq<T>, le: (T, T) -> bool)
    ensures multiset(Insert(x, s, le)) == multiset(s) + multiset{x}
    ensures |Insert(x, s, le)| == |s| + 1
    decreases |s|
  {
    if |s| > 0 && !le(x, s[0]) {
      InsertMultiset(x, s[1..], le);
      assert s == [s[0]] + s[1..];
    }
  }

  lemma {:induction false} InsertSorted<T(!new)>(x: T, s: seq<T>, le: (T, T) -> bool)
    requires TotalPreorder(le) && Sorted(s, le)
    ensures Sorted(Insert(x, s, le), le)
    decreases |s|
  {
    var r := Insert(x, s, le);
    if |s| == 0 || le(x, s[0]) {
      assert r[1..] == s;
      forall i, j | 0 <= i < j < |r| ensures le(r[i], r[j]) {
        if i == 0 && j > 1 {
          assert le(s[0], s[j - 1]);
        }
      }
    } else {
      var t := Insert(x, s[1..], le);
      InsertSorted(x, s[1..], le);
      InsertMultiset(x, s[1..], le);
      assert r == [s[0]] + t;
      assert le(s[0], x);
      forall j | 0 <= j < |t| ensures le(s[0], t[j]) {
        assert t[j] in multiset(t);
        if t[j] != x {
          assert t[j] in multiset(s[1..]);
          var k :| 0 <= k < |s[1..]| && s[1..][k] == t[j];
          assert s[k + 1] == t[j];
        }
      }
      forall i, j | 0 <= i < j < |r| ensures le(r[i], r[j]) {
        if i == 0 {
          assert r[j] == t[j - 1];
        } else {
          assert r[i] == t[i - 1] && r[j] == t[j - 1];
        }
      }
    }
  }

  lemma {:induction false} InsertPeers<T(!new)>(x: T, s: seq<T>, le: (T, T) -> bool, p: T)
    requires TotalPreorder(le)
    ensures Peers(Insert(x, s, le), le, p) == (if Equiv(le, x, p) then [x] else []) + Peers(s, le, p)
    decreases |s|
  {
    var r := Insert(x, s, le);
    var hx := if Equiv(le, x, p) then [x] else [];
    if |s| == 0 || le(x, s[0]) {
      assert r == [x] + s && r[1..] == s;
    } else {
      var t := Insert(x, s[1..], le);
      var hs := if Equiv(le, s[0], p) then [s[0]] else [];
      InsertPeers(x, s[1..], le, p);
      assert r == [s[0]] + t && r[1..] == t;
      assert Peers(r, le, p) == hs + hx + Peers(s[1..], le, p);
      assert Peers(s, le, p) == hs + Peers(s[1..], le, p);
      if hs != [] && hx != [] {
        assert false;
      }
    }
  }

  lemma {:induction false} PeersAppend<T>(a: seq<T>, b: seq<T>, le: (T, T) -> bool, p: T)
    ensures Peers(a + b, le, p) == Peers(a, le, p) + Peers(b, le, p)
    decreases |a|
  {
    if |a| == 0 {
      assert a + b == b;
    } else {
      var head := if Equiv(le, a[0], p) then [a[0]] else [];
      assert (a + b)[0] == a[0];
      assert (a + b)[1..] == a[1..] + b;
      assert Peers(a + b, le, p) == head + Peers(a[1..] + b, le, p);
      PeersAppend(a[1..], b, le, p);
      assert Peers(a, le, p) == head + Peers(a[1..], le, p);
    }
  }

  lemma {:induction false} ReverseAppend<T>(a: seq<T>, b: seq<T>)
    ensures Reverse(a + b) == Reverse(b) + Reverse(a)
  {
  }

  /** Reversing a sequence reverses every group of equal keys. */
  lemma {:induction false} ReversePeers<T>(s: seq<T>, le: (T, T) -> bool, p: T)
    ensures Peers(Reverse(s), le, p) == Reverse(Peers(s, le, p))
    decreases |s|
  {
    if |s| > 0 {
      var head := if Equiv(le, s[0], p) then [s[0]] else [];
      ReversePeers(s[1..], le, p);
      PeersAppend(Reverse(s[1..]), [s[0]], le, p);
      assert Peers([s[0]], le, p) == head;
      ReverseAppend(head, Peers(s[1..], le, p));
      assert Reverse(head) == head;
    }
  }

  /** Reversing a sorted sequence gives one sorted the other way round. */
  lemma SortedReverse<T>(s: seq<T>, le: (T, T) -> bool)
    requires Sorted(s, le)
    ensures forall i, j :: 0 <= i < j < |s| ==> le(Reverse(s)[j], Reverse(s)[i])
  {
    var r := Reverse(s);
    forall i, j | 0 <= i < j < |s| ensures le(r[j], r[i]) {
      assert r[j] == s[|s| - 1 - j] && r[i] == s[|s| - 1 - i];
    }
  }

  lemma ReverseReverse<T>(s: seq<T>)
    ensures Reverse(Reverse(s)) == s
  {
  }

  lemma {:induction false} ReverseMultiset<T>(s: seq<T>)
    ensures multiset(Reverse(s)) == multiset(s)
    decreases |s|
  {
    if |s| > 0 {
      ReverseMultiset(s[1..]);
      assert s == [s[0]] + s[1..];
    }
  }

  /** The members of `Peers(s, le, p)` are the members of `s` equivalent to `p`. */
  lemma {:induction false} PeersMembers<T>(s: seq<T>, le: (T, T) -> bool, p: T, x: T)
    ensures x in Peers(s, le, p) <==> x in s && Equiv(le, x, p)
    decreases |s|
  {
    if |s| > 0 {
      PeersMembers(s[1..], le, p, x);
      assert s == [s[0]] + s[1..];
    }
  }

  lemma HeadIsOwnPeer<T(!new)>(s: seq<T>, le: (T, T) -> bool)
    requires TotalPreorder(le)
    ensures |s| > 0 ==> Peers(s, le, s[0]) != []
  {
    if |s| > 0 {
      assert le(s[0], s[0]);
    }
  }

  /** A sorted sequence is determined by its groups of equal keys: two sorted
      sequences with the same groups are equal. */
  lemma {:induction false} SortedPeersUnique<T(!new)>(a: seq<T>, b: seq<T>, le: (T, T) -> bool)
    requires TotalPreorder(le) && Sorted(a, le) && Sorted(b, le)
    requires forall p :: Peers(a, le, p) == Peers(b, le, p)
    ensures a == b
    decreases |a|
  {
    HeadIsOwnPeer(a, le);
    HeadIsOwnPeer(b, le);
    if |a| == 0 || |b| == 0 {
      // Only both empty is consistent with equal groups.
    } else {
      SameHead(a, b, le);
      forall p ensures Peers(a[1..], le, p) == Peers(b[1..], le, p) {
        SameTailPeers(a, b, le, p);
      }
      SortedSuffix(a, le);
      SortedSuffix(b, le);
      SortedPeersUnique(a[1..], b[1..], le);
      assert a == [a[0]] + a[1..] && b == [b[0]] + b[1..];
    }
  }

  /** Two sorted sequences with the same groups start with the same element. */
  lemma SameHead<T(!new)>(a: seq<T>, b: seq<T>, le: (T, T) -> bool)
    requires TotalPreorder(le) && Sorted(a, le) && Sorted(b, le)
    requires |a| > 0 && |b| > 0
    requires forall p :: Peers(a, le, p) == Peers(b, le, p)
    ensures a[0] == b[0]
  {
    // a[0] lies in b and b[0] lies in a, so each is below the other.
    PeersMembers(a, le, a[0], a[0]);
    PeersMembers(b, le, a[0], a[0]);
    var j :| 0 <= j < |b| && b[j] == a[0];
    assert le(b[0], a[0]) by {
      if j > 0 {
        assert le(b[0], b[j]);
      }
    }
    PeersMembers(b, le, b[0], b[0]);
    PeersMembers(a, le, b[0], b[0]);
    var i :| 0 <= i < |a| && a[i] == b[0];
    assert le(a[0], b[0]) by {
      if i > 0 {
        assert le(a[0], a[i]);
      }
    }
    assert le(a[0], a[0]);
    assert a == [a[0]] + a[1..] && b == [b[0]] + b[1..];
    PeersCons(a[0], a[1..], le, a[0]);
    PeersCons(b[0], b[1..], le, a[0]);
    assert Peers(a, le, a[0])[0] == a[0] && Peers(b, le, a[0])[0] == b[0];
  }

  /** With the same head and the same groups, the tails have the same groups. */
  lemma SameTailPeers<T>(a: seq<T>, b: seq<T>, le: (T, T) -> bool, p: T)
    requires |a| > 0 && |b| > 0 && a[0] == b[0]
    requires Peers(a, le, p) == Peers(b, le, p)
    ensures Peers(a[1..], le, p) == Peers(b[1..], le, p)
  {
    var h := if Equiv(le, a[0], p) then [a[0]] else [];
    assert a == [a[0]] + a[1..] && b == [b[0]] + b[1..];
    PeersCons(a[0], a[1..], le, p);
    PeersCons(b[0], b[1..], le, p);
    PrefixCancel(h, Peers(a[1..], le, p), Peers(b[1..], le, p));
  }

  /** The index of the first element of least key: Python's
      `sorted(s, key=k)[0]` picks this element. */
  function FirstMinIndex<T(!new)>(s: seq<T>, le: (T, T) -> bool): (k: nat)
    requires |s| > 0 && TotalPreorder(le)
    ensures k < |s|
    ensures forall j :: 0 <= j < |s| ==> le(s[k], s[j])
    ensures forall j :: 0 <= j < k ==> !le(s[j], s[k])
    decreases |s|
  {
    if |s| == 1 then 0
    else
      var k' := FirstMinIndex(s[1..], le);
      if le(s[0], s[1 + k']) then 0 else 1 + k'
  }

  /** The head of the stable sort is the first element of least key. */
  lemma {:induction false} SortHead<T(!new)>(s: seq<T>, le: (T, T) -> bool)
    requires |s| > 0 && TotalPreorder(le)
    ensures SortBy(s, le)[0] == s[FirstMinIndex(s, le)]
    decreases |s|
  {
    if |s| > 1 {
      SortHead(s[1..], le);
    }
  }

  /** Any sorted sequence with the same groups of equal keys as `s` is the
      stable sort of `s`: `SortBy` is the only stable sort. */
  lemma SortUnique<T(!new)>(s: seq<T>, r: seq<T>, le: (T, T) -> bool)
    requires TotalPreorder(le) && Sorted(r, le)
    requires forall p :: Peers(r, le, p) == Peers(s, le, p)
    ensures r == SortBy(s, le)
  {
    SortedPeersUnique(r, SortBy(s, le), le);
  }

  /** The stable sort without its head is the stable sort of the input
      without its first element of least key. */
  lemma SortTail<T(!new)>(s: seq<T>, le: (T, T) -> bool)
    requires |s| > 0 && TotalPreorder(le)
    ensures SortBy(s, le)[1..] == SortBy(s[..FirstMinIndex(s, le)] + s[FirstMinIndex(s, le) + 1..], le)
  {
    TailSorted(s, FirstMinIndex(s, le), le);
  }

  lemma TailSorted<T(!new)>(s: seq<T>, k: nat, le: (T, T) -> bool)
    requires |s| > 0 && TotalPreorder(le) && k == FirstMinIndex(s, le)
    ensures SortBy(s, le)[1..] == SortBy(s[..k] + s[k + 1..], le)
  {
    var sorted := SortBy(s, le);
    SortedSuffix(sorted, le);
    forall p ensures Peers(sorted[1..], le, p) == Peers(s[..k] + s[k + 1..], le, p) {
      TailPeers(s, le, p);
    }
    SortUnique(s[..k] + s[k + 1..], sorted[1..], le);
  }

  /** Each group of the sorted tail is that group of the input without its
      first element of least key. */
  lemma TailPeers<T(!new)>(s: seq<T>, le: (T, T) -> bool, p: T)
    requires |s| > 0 && TotalPreorder(le)
    ensures var k := FirstMinIndex(s, le);
            Peers(SortBy(s, le)[1..], le, p) == Peers(s[..k] + s[k + 1..], le, p)
  {
    var k := FirstMinIndex(s, le);
    SortHead(s, le);
    Splice(s, k);
    if Equiv(le, s[k], p) {
      NoPeersBefore(s, le, k, p);
    }
    DropFirstPeer(SortBy(s, le), s[..k], s[k], s[k + 1..], le, p);
  }

  /** If `o` starts with `x` and has the groups of `pre + [x] + post`, and
      nothing in `pre` shares the key of `x`, then the rest of `o` has the
      groups of `pre + post`. */
  lemma DropFirstPeer<T>(o: seq<T>, pre: seq<T>, x: T, post: seq<T>, le: (T, T) -> bool, p: T)
    requires |o| > 0 && o[0] == x
    requires Peers(o, le, p) == Peers(pre + [x] + post, le, p)
    requires Equiv(le, x, p) ==> Peers(pre, le, p) == []
    ensures Peers(o[1..], le, p) == Peers(pre + post, le, p)
  {
    var h := if Equiv(le, x, p) then [x] else [];
    assert o == [x] + o[1..];
    PeersCons(x, o[1..], le, p);
    RemoveFirstPeer(pre, x, post, le, p);
    PrefixCancel(h, Peers(o[1..], le, p), Peers(pre + post, le, p));
  }

  lemma PeersCons<T>(x: T, s: seq<T>, le: (T, T) -> bool, p: T)
    ensures Peers([x] + s, le, p) == (if Equiv(le, x, p) then [x] else []) + Peers(s, le, p)
  {
    assert ([x] + s)[1..] == s;
  }

  lemma Splice<T>(s: seq<T>, k: nat)
    requires k < |s|
    ensures s == s[..k] + [s[k]] + s[k + 1..]
  {
  }

  /** Taking `x` out of `pre + [x] + post`, when nothing in `pre` shares its
      key, takes it out of the front of its group and leaves every other
      group alone. */
  lemma RemoveFirstPeer<T>(pre: seq<T>, x: T, post: seq<T>, le: (T, T) -> bool, p: T)
    requires Equiv(le, x, p) ==> Peers(pre, le, p) == []
    ensures Peers(pre + [x] + post, le, p)
            == (if Equiv(le, x, p) then [x] else []) + Peers(pre + post, le, p)
  {
    PeersSplice(pre, x, post, le, p);
    if Equiv(le, x, p) {
      assert Peers(pre, le, p) + [x] == [x];
    } else {
      assert Peers(pre, le, p) + [] == Peers(pre, le, p);
    }
  }

  /** The groups of `pre + [x] + post` and of `pre + post`. */
  lemma PeersSplice<T>(pre: seq<T>, x: T, post: seq<T>, le: (T, T) -> bool, p: T)
    ensures var h := if Equiv(le, x, p) then [x] else [];
            Peers(pre + [x] + post, le, p) == Peers(pre, le, p) + h + Peers(post, le, p)
    ensures Peers(pre + post, le, p) == Peers(pre, le, p) + Peers(post, le, p)
  {
    assert pre + [x] + post == pre + ([x] + post);
    PeersAppend(pre, [x] + post, le, p);
    PeersCons(x, post, le, p);
    PeersAppend(pre, post, le, p);
  }

  /** No element before the first element of least key shares its key. */
  lemma NoPeersBefore<T(!new)>(s: seq<T>, le: (T, T) -> bool, k: nat, p: T)
    requires |s| > 0 && TotalPreorder(le) && k == FirstMinIndex(s, le)
    requires Equiv(le, s[k], p)
    ensures Peers(s[..k], le, p) == []
  {
    var pre := s[..k];
    forall j | 0 <= j < |pre| ensures !Equiv(le, pre[j], p) {
      assert pre[j] == s[j] && !le(s[j], s[k]);
    }
    NoPeers(pre, le, p);
  }

  lemma {:induction false} NoPeers<T>(s: seq<T>, le: (T, T) -> bool, p: T)
    requires forall j :: 0 <= j < |s| ==> !Equiv(le, s[j], p)
    ensures Peers(s, le, p) == []
    decreases |s|
  {
    if |s| > 0 {
      NoPeers(s[1..], le, p);
    }
  }

  lemma SortedSuffix<T>(s: seq<T>, le: (T, T) -> bool)
    requires |s| > 0 && Sorted(s, le)
    ensures Sorted(s[1..], le)
  {
    forall i, j | 0 <= i < j < |s| - 1 ensures le(s[1..][i], s[1..][j]) {
      assert s[1..][i] == s[i + 1] && s[1..][j] == s[j + 1];
    }
  }

  lemma PrefixCancel<T>(h: seq<T>, a: seq<T>, b: seq<T>)
    requires h + a == h + b
    ensures a == b
  {
    assert a == (h + a)[|h|..] && b == (h + b)[|h|..];
  }
}

=== FILE: text.dfy ===
/** The few Python string operations the model needs, stated on `seq<char>`:
    slicing with clamped bounds, substring containment (`sub in s`) and the
    ordering Python uses to compare two strings. */
module Text {

  /** Python `s[0:n]`: the first `n` characters, or all of `s` when it is shorter. */
  function Take(s: string, n: nat): (r: string)
    ensures |r| == if n <= |s| then n else |s|
    ensures r <= s
  {
    if n <= |s| then s[..n] else s
  }

  /** Python `s[n:]`: everything after the first `n` characters. */
  function Drop(s: string, n: nat): (r: string)
    ensures Take(s, n) + r == s
  {
    if n <= |s| then s[n..] else []
  }

  /** Python `s[:-n]`: everything but the last `n` characters. */
  function DropLast(s: string, n: nat): (r: string)
    ensures |r| == if n <= |s| then |s| - n else 0
    ensures r <= s
  {
    if n <= |s| then s[..|s| - n] else []
  }

  /** Python `sub in s`. */
  predicate Contains(s: string, sub: string)
    decreases |s|
  {
    sub <= s || (|s| > 0 && Contains(s[1..], sub))
  }

  /** A string never contains a longer one. */
  lemma {:induction false} NotContainsLonger(s: string, sub: string)
    requires |sub| > |s|
    ensures !Contains(s, sub)
    decreases |s|
  {
    if |s| > 0 {
      NotContainsLonger(s[1..], sub);
    }
  }

  /** Python's `a <= b` on two strings: lexicographic by character code,
      a proper prefix ordering before the longer string. */
  predicate LexLe(a: string, b: string)
    decreases |a|
  {
    |a| == 0 || (|b| > 0 && (a[0] < b[0] || (a[0] == b[0] && LexLe(a[1..], b[1..]))))
  }

  /** Any two strings compare one way or the other. */
  lemma {:induction false} LexTotal(a: string, b: string)
    ensures LexLe(a, b) || LexLe(b, a)
    decreases |a|
  {
    if |a| > 0 && |b| > 0 && a[0] == b[0] {
      LexTotal(a[1..], b[1..]);
    }
  }

  /** String comparison chains. */
  lemma {:induction false} LexTransitive(a: string, b: string, c: string)
    requires LexLe(a, b) && LexLe(b, c)
    ensures LexLe(a, c)
    decreases |a|
  {
    if |a| > 0 && a[0] == b[0] && b[0] == c[0] {
      LexTransitive(a[1..], b[1..], c[1..]);
    }
  }
}

=== FILE: wrappers.dfy ===
/** Failure-compatible wrappers used throughout the model: an optional value
    (Python's `None` or a value) and a result that either carries a value or
    the exception the Python code would raise. */
module Wrappers {

  datatype Option<+T> = None | Some(value: T)

  datatype Result<+T, +E> = Success(value: T) | Failure(error: E) {

    predicate IsFailure() {
      Failure?
    }

    function PropagateFailure<U>(): Result<U, E>
      requires Failure?
    {
      Failure(error)
    }

    function Extract(): T
      requires Success?
    {
      value
    }
  }
}

/** The exceptions the modelled code can raise, each named after the
    situation that raises it. */
module Errors {

  datatype Error =
      /** `ValueError`: an ordering other than 'normal' or 'special' was asked for. */
    | BadOrdering(ordering: string)
      /** `IndexError`: an index into an empty (or too short) list. */
    | IndexOutOfRange
      /** `TypeError`: `int(None)` because no year was found in the citation text. */
    | YearMissing
      /** `ValueError`: `int(text)` on matched text that is not a decimal integer. */
    | YearNotInteger(text: string)
}
